=== FILE: README.md ===
# EchoFlow file layer, tracker, health check and settings, in Dafny

This project models the statable core of EchoFlow, a Python service skeleton.
The model covers:

- the local file utility (`LocalFileUtility`), which writes, reads, copies,
  deletes, lists and sanitises files on the host;
- the older file facade (`core/file_manager.py`), which calls the host directly
  and wraps its operations in performance-tracker scopes;
- the local backend (`LocalFileManager`), which passes each call through to the
  utility, and its four cloud placeholders, which always raise;
- the newer `FileManagerFacade`, which decorates any backend. For each
  operation it opens a tracker scope with a fixed label, delegates, and logs one
  structured entry when the call succeeds;
- the `PerformanceTracker` metric store and the `ProgressBarTracker` wrapper;
- the `HealthCheck` aggregation;
- the `LOG_LEVEL` validator and defaults of `AppConfig`;
- the level check and processor chain of `configure_logger`.

The host is modelled as an immutable value: a map from path to file data, a set
of directories, and the names `os.listdir` reports for each directory
(`HostFs.FileSys`). The host primitives follow Linux errno semantics:
`open`, `os.remove`, `os.stat`, `os.listdir`, `os.mkdir`, `os.makedirs(exist_ok=True)`
and `shutil.copy2` as Python 3.10 and later implement it. Paths are split and joined exactly as `posixpath` does
(`PosixPath`). A trailing slash is resolved as the Linux kernel resolves it
(`HostFs.Resolve`): `d/` names the directory `d`. For a regular file `f`, `f/`
gives ENOTDIR in `os.stat`, `os.remove`, `os.listdir` and a read-only `open`,
EISDIR in `open(..., "wb")`, and EEXIST in `os.mkdir`. A well-formed host (`HostFs.Valid`) keeps files and directories
disjoint and keeps every entry inside an existing directory. Lemmas that need
this property require it, and every operation preserves it.

Every operation that logs or records a metric runs against a `Runtime.World`.
A World holds the host, the host clock as a write reads it, the tracker's
metric map, and one shared, append-only log. An operation returns a
`Runtime.Step`: the value it returned or the exception it raised, plus the
World it leaves behind. The loggers of the facade, the backend and the tracker
are separate objects in the program. The model interleaves their entries into
one log in the order they are written. A tracker scope's elapsed time is a
parameter, because the clock is not modelled. A backend is a record of
functions (`BaseFileManager.Backend`), so the facade is proved once for every
backend. `LocalFileManager.Local` is the local instance.

`configure_logger` checks its level argument and then never uses it. The chain
it builds depends only on the environment (`LoggerConfig.ChainIgnoresLevel`).

## Model

| member | source | states |
|---|---|---|
| `PosixPath.Split` | src/utils/file_utils.py:30 | the head is never longer than the path; it is strictly shorter when the tail is non-empty; it is either empty, the root, or strictly shorter |
| `PosixPath.Join` | src/utils/file_utils.py:78-80 | an absolute second part replaces the first; otherwise the result extends the first part and ends with the second |
| `PosixPath.PlainJoin` | src/utils/file_utils.py:78-80 | a normalised path is rebuilt by joining its dirname and basename; it is neither empty nor the root, and its dirname is empty, the root or normalised again |
| `HostFs.WriteFile` | src/core/file_manager.py:30-31 | `open(p, "wb").write(c)` succeeds exactly when `p` is writable; the file then holds `c` with modification time now; no other file, directory or listing changes; a well-formed host stays well-formed; a failure names `p`; a directory, or a slashed name in an existing parent (even `f/` for a regular file `f`), gives EISDIR; an unreachable parent gives the parent's errno |
| `HostFs.ReadFile` | src/core/file_manager.py:41-42 | reading succeeds exactly on a regular file and returns its bytes; a directory gives EISDIR; anything else gives the missing-path error |
| `HostFs.Resolve` | src/utils/file_utils.py:57 | the entry the kernel looks up never ends in a slash and is never longer than the path; an unslashed path is its own entry; a slashed one names a non-root entry |
| `HostFs.Remove` | src/utils/file_utils.py:57 | `os.remove` succeeds exactly on a regular file named without a trailing slash, and removes only that file; a directory, with or without the slash, gives EISDIR; anything else gives the missing-path error, which is ENOTDIR for `f/` on a regular file; a well-formed host stays well-formed |
| `HostFs.RemoveFileKeepsValid` | src/utils/file_utils.py:57 | removing a regular file keeps a well-formed host well-formed |
| `HostFs.Stat` | src/utils/file_utils.py:45-50 | stat of a regular file reports its byte count and its two timestamps; other paths fail |
| `HostFs.ListDir` | src/utils/file_utils.py:78 | `os.listdir` succeeds exactly on a directory, `d/` included, and returns the host's names for the resolved directory; a regular file, with or without a trailing slash, gives ENOTDIR |
| `HostFs.Mkdir` | src/utils/file_utils.py:97 | `os.mkdir` succeeds exactly when nothing exists at the resolved path (`a/` is `a`) and its parent is a directory; it adds that one directory, after which the argument is a directory, and keeps the host well-formed; an existing entry gives EEXIST |
| `HostFs.MkdirExistOk` | src/utils/file_utils.py:97 | as `Mkdir`, except that an existing directory (`d` or `d/`) is accepted and the host is returned unchanged; on success the argument is a directory; a failure changes nothing |
| `HostFs.MakeDirs` | src/utils/file_utils.py:97 | `os.makedirs(exist_ok=True)` never touches files or listings; it only adds directories, none longer than the argument; on success the argument is a directory, unless its last component is `.`; it keeps the host well-formed |
| `HostFs.MakeLast` | src/utils/file_utils.py:97 | after the ancestors are handled, `makedirs` only adds the resolved argument; an error other than `FileExistsError` from the ancestors stops it; on success, unless the tail is `.`, the argument is a directory |
| `HostFs.MakeDirsWithParent` | src/utils/file_utils.py:97 | when the parent of a normalised path already exists, `makedirs` is exactly the final tolerant `mkdir` |
| `HostFs.MakeDirsSucceeds` | src/utils/file_utils.py:92-99 | on a well-formed host, `makedirs` of a normalised path succeeds exactly when neither the path nor any ancestor is a regular file; `FileExistsError` escapes only when the path itself is a regular file |
| `HostFs.MkdirUnderExistingParent` | src/utils/file_utils.py:97 | when the parent already exists, `makedirs` is one `mkdir` that tolerates an existing directory, and it fails exactly when a regular file is on the path |
| `HostFs.MakeDirsAfterParent` | src/utils/file_utils.py:97 | when the parent is missing, `makedirs` succeeds exactly when creating the parent succeeds and nothing is in the way, and its error is never `FileExistsError` |
| `HostFs.DirHasNoFileOnPath` | src/utils/file_utils.py:97 | on a well-formed host, no ancestor of a directory is a regular file |
| `HostFs.MakeDirsAtomic` | src/utils/file_utils.py:92-99 | on a well-formed host, a failed `makedirs` of a normalised path has created nothing |
| `HostFs.MakeDirsNoop` | src/utils/file_utils.py:92-99 | `makedirs` of an existing directory succeeds and changes nothing |
| `HostFs.MakeDirsIdempotent` | src/utils/file_utils.py:92-99 | a second `makedirs` after a successful one succeeds and changes nothing |
| `HostFs.Copy2` | src/utils/file_utils.py:66 | `shutil.copy2` succeeds exactly when the source is a regular file, the target is not the source itself and is writable; the target (`dst`, or `dst/basename(src)` when `dst` is a directory) gets the source's bytes and timestamps; every other file, every directory and every listing is unchanged; the host stays well-formed; when the target is a slashed name in an existing parent that is not a directory (absent, or a regular file), the error is `copyfile`'s `FileNotFoundError` "Directory does not exist: ..." naming the target, and in no other case |
| `HostFs.CopyToMissingDirectory` | src/utils/file_utils.py:66 | on a well-formed host, copying a regular file to `x/` in an existing directory, where `x` is absent or a regular file, fails with "Directory does not exist: x/", not with `IsADirectoryError` |
| `HostFs.SlashedFileAsTarget` | src/core/file_manager.py:30-31 | on a well-formed host, for a regular file `f`, `open("f/", "wb")` gives EISDIR and `copy2(src, "f/")` gives "Directory does not exist: f/" |
| `FileUtils.Failed` | src/utils/file_utils.py:36 | a wrapped failure is an `OSError` whose message starts with the operation's context |
| `FileUtils.SafeWrite` | src/utils/file_utils.py:25-36 | succeeds exactly when the path is non-empty, does not end in a slash, its directory exists and it is not itself a directory; on success the file holds the content and nothing else changes; on failure nothing changes and an `OSError` "Failed to safely write file p..." is raised; well-formedness is kept |
| `FileUtils.SafeWriteReadBack` | src/utils/file_utils.py:25-52 | after a successful write the file exists, reads back the written bytes, and its metadata size is the content length |
| `FileUtils.FileExists` | src/utils/file_utils.py:38-40 | `isfile` is true exactly where reading the path succeeds; in the model it is also true exactly where fetching metadata succeeds, which Python's `os.stat` of a directory breaks (see Left out) |
| `FileUtils.GetFileMetadata` | src/utils/file_utils.py:42-52 | succeeds exactly on a regular file, with size equal to the stored length and the stored timestamps; otherwise `OSError` "Failed to fetch metadata for p..." |
| `FileUtils.DeleteFileSafe` | src/utils/file_utils.py:54-61 | raises exactly when the path is not a file and is a directory (`d` or `d/`), is a regular file written with a trailing slash, or lies under a regular file; otherwise the path is no longer a file and nothing else changed (a missing file counts as success); a raise changes nothing and is an `OSError` "Failed to delete file p..." |
| `FileUtils.DeleteErrno` | src/utils/file_utils.py:57-61 | a failed `os.remove` reports "not found" exactly when the path is no directory, is not a regular file written with a trailing slash, and has no regular file on the way |
| `FileUtils.DeleteTwice` | src/utils/file_utils.py:54-61 | after a successful delete the file is gone, and deleting it again succeeds with the same result |
| `FileUtils.CopyFileSafe` | src/utils/file_utils.py:63-68 | succeeds exactly when `copy2` may copy; the target then holds the source's data; the target is the only new file; the source and every other file, every directory and every listing are unchanged; a failure changes nothing and is an `OSError` "Failed to copy file from s to d..."; a slashed target that is not a directory (absent, or a regular file) gives the message "...: Directory does not exist: ..." |
| `FileUtils.CopyToMissingDirectoryExample` | src/utils/file_utils.py:63-68 | `copy_file_safe("s", "x/")` with no `x` raises `OSError` "Failed to copy file from s to x/: Directory does not exist: x/" |
| `FileUtils.SlashedFileTargetExample` | src/utils/file_utils.py:63-68 | with regular files `s` and `f`, writing `f/` gives EISDIR and copying `s` to `f/` reports "Directory does not exist: f/" |
| `FileUtils.FilterListing` | src/utils/file_utils.py:77-82 | the result contains only regular files; it contains `join(d, f)` for every listed `f` that is a file passing the suffix filter, and nothing else; it is no longer than the listing |
| `FileUtils.FilterListingAppend` | src/utils/file_utils.py:77-82 | filtering keeps the listing's order: the filter of a concatenation is the concatenation of the filters |
| `FileUtils.NoFilterKeepsEveryFile` | src/utils/file_utils.py:81 | `None` and an empty tuple give the same result, which keeps every regular file in the listing |
| `FileUtils.ListFilesInDirectory` | src/utils/file_utils.py:70-84 | succeeds exactly on a directory, with the filter applied to the host's listing in order; otherwise `OSError` "Failed to list files in directory d..." |
| `FileUtils.SanitizeFilenameSafe` | src/utils/file_utils.py:86-90 | the output has the input's length; each character is kept if it is alphanumeric or one of ` ._-()`, and is `_` otherwise |
| `FileUtils.SanitizeFixpoints` | src/utils/file_utils.py:90 | the output is always a safe name; a name is left unchanged exactly when it is already safe; sanitising is idempotent |
| `FileUtils.SanitizeAppend` | src/utils/file_utils.py:90 | sanitising distributes over concatenation |
| `FileUtils.SanitizeExample` | src/utils/file_utils.py:90 | `unsafe/file*name?.txt` becomes `unsafe_file_name_.txt` |
| `FileUtils.EnsureDirectoryExists` | src/utils/file_utils.py:92-99 | files are never touched and directories are only added; on success a normalised path is a directory; a failure is an `OSError` "Failed to ensure directory exists at d..."; well-formedness is kept |
| `FileUtils.EnsureDirectorySucceeds` | src/utils/file_utils.py:92-99 | on a well-formed host, ensuring a normalised directory succeeds exactly when no regular file sits at the path or any ancestor, and the path is then a directory |
| `FileUtils.SlashedMakedirsExample` | src/utils/file_utils.py:92-99 | `ensure_directory_exists("a/")` on an empty host succeeds and creates exactly the directory `a` |
| `FileUtils.SlashedMakedirsIsMkdir` | src/utils/file_utils.py:97 | `makedirs("c/")` for a one-character name is a single `mkdir` that accepts an existing directory |
| `FileUtils.SlashedMkdirOnEmpty` | src/utils/file_utils.py:97 | on an empty host, `mkdir("c/")` creates exactly the directory `c` |
| `FileUtils.SlashedDeleteRaises` | src/utils/file_utils.py:54-61 | deleting a name with a trailing slash that resolves to an existing directory or regular file raises and changes nothing, instead of counting as "not found" |
| `FileUtils.SlashedDeleteExamples` | src/utils/file_utils.py:54-61 | deleting `d/` for a directory `d`, or `f/` for a regular file `f`, raises |
| `FileUtils.EnsureDirectoryIdempotent` | src/utils/file_utils.py:92-99 | on a well-formed host, ensuring a normalised directory twice is the same as ensuring it once, and a failure changes nothing |
| `PyText.NatStr` | src/core/file_manager.py:90 | `str(n)` of a count is a non-empty string of decimal digits whose decimal value is `n`, with no leading zero unless `n` is 0 |
| `PyText.Upper` | src/core/config.py:32 | upper-casing keeps the length and raises each lower-case letter |
| `PyText.UpperIdempotent` | src/core/config.py:32-34 | upper-casing twice equals upper-casing once, and a string with no lower-case letters is unchanged |
| `Tracker.Record` | src/core/performance_tracker.py:44 | after recording, the name maps to the new time, the keys are the old keys plus the name, and every other name keeps its value |
| `Tracker.TrackExecution` | src/core/performance_tracker.py:32-49 | the started entry is logged before the body runs; the body's result or exception is passed on; on both paths the time is recorded under the name and the completed entry comes after the body's entries; files and other metrics are as the body left them |
| `Tracker.TrackRecordsOnRaise` | src/core/performance_tracker.py:39-49 | a body that raises still gets its time recorded and its completed entry logged, and the exception propagates |
| `Tracker.GetMetric` | src/core/performance_tracker.py:63-67 | returns `None` exactly for a name never recorded, and otherwise the recorded time |
| `Tracker.Track` | src/core/performance_tracker.py:69-74 | `track` never raises and leaves the files and the clock alone; it logs exactly the started and completed entries; the keys become the old keys plus the name, the name maps to the new time and every other name keeps its time |
| `Tracker.TrackRecords` | src/core/performance_tracker.py:63-74 | after `track(name)`, `get_metric(name)` reports the new time and every other name reads as before |
| `Tracker.LastTrackWins` | src/core/performance_tracker.py:44 | a second scope with the same name replaces the first time and adds no other key |
| `Tracker.Pull` | src/core/performance_tracker.py:99-101 | a pull from a non-empty remainder yields its first item and logs nothing; an exhausted remainder stops and logs the completed entry |
| `Tracker.Next` | src/core/performance_tracker.py:86-101 | one `next()` on the `wrap` generator stops exactly when it leaves the generator finished; a finished generator yields and logs nothing |
| `Tracker.DriveFinished` | src/core/performance_tracker.py:86-101 | any number of further calls on a finished generator yield nothing and log nothing |
| `Tracker.DriveRunning` | src/core/performance_tracker.py:99-101 | inside the loop, `k` calls yield the next `k` items and log nothing while items remain; once they run out, the rest is yielded and the completed entry is logged exactly once |
| `Tracker.WrapYields` | src/core/performance_tracker.py:86-101 | before the first call nothing has run; for `None` the first call logs the warning and stops; otherwise the first call logs the started entry, the items come in order, and the completed entry is logged only by the call that finds the source exhausted |
| `Tracker.ProgressTrack` | src/core/performance_tracker.py:103-107 | `track` yields and logs exactly what `wrap` does: the warning alone for `None`, and otherwise a prefix of the source after the started entry, or the whole source between the started and completed entries once exhausted |
| `LogLevels.AllowedAreUpper` | src/core/config.py:31 | every allowed level is upper case and accepted as it is |
| `LogLevels.IsAllowedIgnoresCase` | src/core/config.py:32 | a level and its upper-cased form are accepted together |
| `Config.Defaults` | src/core/config.py:13-37 | the defaults are `development`, debug off, no database, broker or secret key, level `INFO` and a 30-second timeout |
| `Config.ValidateLogLevel` | src/core/config.py:28-34 | succeeds exactly when the upper-cased value is one of the five levels, and then returns that upper-cased value; otherwise raises `ValueError` "Invalid LOG_LEVEL: v..." |
| `Config.ValidateLogLevelIdempotent` | src/core/config.py:29-34 | validating a validated level returns it unchanged |
| `Config.ValidateLogLevelExamples` | src/core/config.py:32-34 | `debug` becomes `DEBUG`, `Warning` becomes `WARNING`, and `INVALID` is refused |
| `Config.Load` | src/core/config.py:13-37 | each field is the supplied value or its default; a supplied level is validated and stored upper-cased, while the default level is not validated; a refused level is a validation error on `LOG_LEVEL` |
| `Config.LoadDefaults` | src/core/config.py:13-37 | with nothing supplied the settings are exactly the defaults |
| `LoggerConfig.ConfigureLogger` | src/core/logger_config.py:17-32 | succeeds exactly when the upper-cased level is allowed; the chain is then the five base processors in order plus exactly one renderer, in last place: console exactly when the environment is `development`, JSON otherwise; a refusal raises `ValueError` "Invalid log_level: l..." |
| `LoggerConfig.ChainIgnoresLevel` | src/core/logger_config.py:17-32 | any two accepted levels give the same chain |
| `LoggerConfig.ConfigureLoggerExamples` | src/core/logger_config.py:17-19 | `debug` is accepted and `INVALID` is refused |
| `HealthCheck.Status` | src/core/health_check.py:39-44 | the status is `Healthy` exactly when the probe did not raise, and otherwise `Unhealthy: ` followed by the exception text |
| `HealthCheck.CheckLogger` | src/core/health_check.py:39-44 | the logger is `Healthy` exactly when `log_info` returned, and otherwise `Unhealthy: ` followed by the exception text |
| `HealthCheck.CheckConfig` | src/core/health_check.py:46-52 | a readable config reports `Healthy: APP_ENV=<env>, DEBUG=<True/False>`; an unreadable one reports its exception |
| `HealthCheck.TrackerRaised` | src/core/health_check.py:54-60 | a failing `track` is the tracker's failure; otherwise `log_system_metrics` decides |
| `HealthCheck.CheckPerformanceTracker` | src/core/health_check.py:54-60 | the tracker is healthy exactly when neither `track` nor `log_system_metrics` raised |
| `HealthCheck.Calls` | src/core/health_check.py:54-57 | the run probes the logger, then `track`; it calls `log_system_metrics` exactly when `track` returned |
| `HealthCheck.Run` | src/core/health_check.py:25-37 | `run` never raises; it maps exactly the keys `logger`, `config` and `performance_tracker` to their checks |
| `HealthCheck.ChecksIndependent` | src/core/health_check.py:32-60 | each entry depends on its own component only |
| `HealthCheck.TrackFailureShortCircuits` | src/core/health_check.py:54-60 | a failed `track` is reported with its own message, and `log_system_metrics` is not called |
| `HealthCheck.DefaultsHealthy` | src/core/health_check.py:46-50 | with default settings and healthy components every entry is healthy, and the config entry reads `Healthy: APP_ENV=development, DEBUG=False` |
| `LocalFileManager.Framed` | src/interfaces/local_file_manager.py:16-19 | a pass-through has the utility's effect on the files, raises what the utility raised, and logs the success line only if nothing was raised |
| `LocalFileManager.SaveFile` | src/interfaces/local_file_manager.py:16-19 | has exactly `safe_write`'s effect and error; logs "Saving file" always and "File saved successfully" only on success |
| `LocalFileManager.FileExists` | src/interfaces/local_file_manager.py:21-24 | returns `isfile` of the path and logs the answer |
| `LocalFileManager.GetFileMetadata` | src/interfaces/local_file_manager.py:26-29 | returns or raises exactly what the utility does; logs the metadata only on success |
| `LocalFileManager.DeleteFile` | src/interfaces/local_file_manager.py:31-34 | has exactly `delete_file_safe`'s effect and error, with its two entries |
| `LocalFileManager.CopyFile` | src/interfaces/local_file_manager.py:36-39 | has exactly `copy_file_safe`'s effect and error, with its two entries |
| `LocalFileManager.EnsureDirectoryExists` | src/interfaces/local_file_manager.py:41-44 | has exactly the utility's `makedirs` effect and error, with its two entries |
| `LocalFileManager.ListFiles` | src/interfaces/local_file_manager.py:46-51 | returns exactly the utility's listing; the filter only chooses which entry is logged |
| `LocalFileManager.ListFilesBranchLogOnly` | src/interfaces/local_file_manager.py:47-51 | an empty filter and no filter give the same listing and the same log |
| `LocalFileManager.SanitizeFilename` | src/interfaces/local_file_manager.py:53-56 | returns the utility's sanitised name and logs the original and the result |
| `LocalFileManager.Unsupported` | src/interfaces/local_file_manager.py:58-73 | a cloud placeholder logs the attempt and raises `NotImplementedError` with its message |
| `LocalFileManager.UploadFile` | src/interfaces/local_file_manager.py:59-61 | always raises `NotImplementedError("Cloud upload is not implemented.")` and leaves files and metrics unchanged |
| `LocalFileManager.DownloadFile` | src/interfaces/local_file_manager.py:63-65 | always raises `NotImplementedError("Cloud download is not implemented.")` and leaves files and metrics unchanged |
| `LocalFileManager.ListCloudFiles` | src/interfaces/local_file_manager.py:67-69 | always raises `NotImplementedError("Cloud file listing is not implemented.")` and leaves files and metrics unchanged |
| `LocalFileManager.DeleteCloudFile` | src/interfaces/local_file_manager.py:71-73 | always raises `NotImplementedError("Cloud file deletion is not implemented.")` and leaves files and metrics unchanged |
| `LocalFileManager.LogOperation` | src/interfaces/local_file_manager.py:75-76 | logs one info entry "Operation: op" whose fields are the details |
| `LocalFileManager.CloudAlwaysFails` | src/interfaces/local_file_manager.py:59-73 | for every pair of paths, each cloud operation of the local backend raises `NotImplementedError` and leaves the files alone |
| `LegacyFileManager.Tracked` | src/core/file_manager.py:28-35 | a tracked call returns the host's value or re-raises the host's exception unchanged; a failure leaves the files alone; the time is recorded under the label; exactly one entry is logged between the scope's entries, and it is an error entry exactly when the host failed |
| `LegacyFileManager.SaveFile` | src/core/file_manager.py:26-35 | a tracked "Save File" write that succeeds exactly when the path is writable; a directory, or a slashed name in an existing parent, re-raises `IsADirectoryError`; a well-formed host stays well-formed |
| `LegacyFileManager.LoadFile` | src/core/file_manager.py:37-47 | a tracked "Load File" read that succeeds exactly on a regular file |
| `LegacyFileManager.DeleteFile` | src/core/file_manager.py:49-57 | a tracked "Delete File" `os.remove` that succeeds exactly on a regular file; a well-formed host stays well-formed |
| `LegacyFileManager.CopyFile` | src/core/file_manager.py:59-69 | a tracked "Copy File" `copy2` that succeeds exactly when the copy is possible; a slashed target that is not a directory (absent, or a regular file) re-raises `FileNotFoundError` "Directory does not exist"; a well-formed host stays well-formed |
| `LegacyFileManager.EnsureDirectoryExists` | src/core/file_manager.py:71-78 | untracked `makedirs`: metrics are unchanged, the files reflect whatever `makedirs` did, one info or error entry is logged, and the host's exception is re-raised |
| `LegacyFileManager.ListFiles` | src/core/file_manager.py:80-97 | untracked: succeeds exactly when `listdir` does, returns the utility's filter over the listing, and logs the count; a failure logs one error and re-raises the host's exception |
| `LegacyFileManager.SanitizeFilename` | src/core/file_manager.py:99-105 | returns the utility's sanitised name and logs it, with no scope |
| `LegacyFileManager.SaveLoadRoundTrip` | src/core/file_manager.py:26-47 | after a successful save, loading the path returns the saved content |
| `LegacyFileManager.DeleteMissingRaises` | src/core/file_manager.py:49-57 | deleting a missing path re-raises the host's missing-path error, logs it, and changes no file, where the utility's delete succeeds on "not found" |
| `LegacyFileManager.ListFilesAgreesWithUtility` | src/core/file_manager.py:80-97 | the legacy listing and the utility's listing succeed on the same paths and return the same list |
| `LegacyFileManager.ListFilesExample` | src/core/file_manager.py:83-88 | `(".txt",)` over `file1.txt`, `file2.txt` and `file3.log` gives `d/file1.txt` then `d/file2.txt` |
| `FileManagerFacade.Scoped` | src/core/file_manager_facade.py:29-33 | the backend runs once, after the scope's started entry; its result or exception is returned unchanged and its effect on the files is kept; the time is recorded under the label; exactly one success entry is logged if it returned, none if it raised, and then the completed entry |
| `FileManagerFacade.SaveFile` | src/core/file_manager_facade.py:29-33 | decorates `save_file` under "Save File", with a success entry carrying the operation and the path |
| `FileManagerFacade.FileExists` | src/core/file_manager_facade.py:35-40 | decorates `file_exists` under "Check File Exists"; the entry carries the answer |
| `FileManagerFacade.GetFileMetadata` | src/core/file_manager_facade.py:42-47 | decorates `get_file_metadata` under "Get File Metadata"; the entry carries the metadata |
| `FileManagerFacade.DeleteFile` | src/core/file_manager_facade.py:49-53 | decorates `delete_file` under "Delete File" |
| `FileManagerFacade.CopyFile` | src/core/file_manager_facade.py:55-59 | decorates `copy_file` under "Copy File"; the entry carries the source and the destination |
| `FileManagerFacade.EnsureDirectoryExists` | src/core/file_manager_facade.py:61-65 | decorates `ensure_directory_exists` under "Ensure Directory Exists" |
| `FileManagerFacade.ListFiles` | src/core/file_manager_facade.py:67-78 | decorates `list_files` under "List Files"; `file_count` is the length of the returned list |
| `FileManagerFacade.SanitizeFilename` | src/core/file_manager_facade.py:80-84 | opens no scope and records no metric; returns the backend's result and logs the original and the sanitised name only if it returned |
| `FileManagerFacade.UploadFile` | src/core/file_manager_facade.py:86-90 | decorates `upload_file` under "Upload File" |
| `FileManagerFacade.DownloadFile` | src/core/file_manager_facade.py:92-96 | decorates `download_file` under "Download File" |
| `FileManagerFacade.ListCloudFiles` | src/core/file_manager_facade.py:98-103 | decorates `list_cloud_files` under "List Cloud Files"; `file_count` is the length of the returned list |
| `FileManagerFacade.DeleteCloudFile` | src/core/file_manager_facade.py:105-109 | decorates `delete_cloud_file` under "Delete Cloud File" |
| `FileManagerFacade.RaisedNotLogged` | src/core/file_manager_facade.py:29-33 | when the backend raises, the exception propagates, no success entry is logged, and the scope still records its time |
| `LocalFacade.SaveMatchesUtility` | src/core/file_manager_facade.py:29-33 | through the facade, the local save has exactly `safe_write`'s effect and error, and "Save File" is recorded |
| `LocalFacade.ExistsMatchesUtility` | src/core/file_manager_facade.py:35-40 | through the facade, the local existence check is `isfile` and changes no file |
| `LocalFacade.MetadataMatchesUtility` | src/core/file_manager_facade.py:42-47 | through the facade, the local metadata is the utility's |
| `LocalFacade.DeleteMatchesUtility` | src/core/file_manager_facade.py:49-53 | through the facade, the local delete has exactly `delete_file_safe`'s effect and outcome |
| `LocalFacade.CopyMatchesUtility` | src/core/file_manager_facade.py:55-59 | through the facade, the local copy has exactly `copy_file_safe`'s effect and outcome |
| `LocalFacade.EnsureMatchesUtility` | src/core/file_manager_facade.py:61-65 | through the facade, the local directory creation has exactly the utility's effect and outcome |
| `LocalFacade.ListMatchesUtility` | src/core/file_manager_facade.py:67-78 | through the facade, the local listing is the utility's |
| `LocalFacade.SanitizeMatchesUtility` | src/core/file_manager_facade.py:80-84 | through the facade, local sanitising is the utility's map and records no metric |
| `LocalFacade.UploadFailsThroughFacade` | src/core/file_manager_facade.py:86-90 | a local cloud upload through the facade raises `NotImplementedError`, changes no file, logs no success entry and still records "Upload File" |
| `LocalFacade.SaveInspectDelete` | src/core/file_manager_facade.py:29-53 | after saving into an existing directory, under a name that does not end in a slash and is not a directory, the file exists with the saved size; after deleting it, it no longer exists |

## Left out

- `FileUtils.SanitizeFilenameSafe`, `PyText.Upper`, `Config.ValidateLogLevel` and `LoggerConfig.ConfigureLogger`: `str.isalnum` and `str.upper` are modelled on ASCII only. In Python, `str.upper` also maps some non-ASCII letters to ASCII, so the dotless `ı` makes `"ınfo"` pass as `INFO`. The model refuses that input.
- `FileUtils.SafeWrite`: the temporary file and `shutil.move` are modelled as one atomic replacement. Temporary files left behind by a failed move, and crash atomicity, are not modelled. The error text does not carry the host's own cause.
- `FileUtils.SafeWrite`: when the path is an existing directory written without a trailing slash, `shutil.move` moves the temporary file into that directory and returns normally. The model instead treats this case as an `EISDIR` failure that changes nothing. Written with a trailing slash, the temporary file is created inside the directory itself and `shutil.move` raises `shutil.Error`, which the model's failure matches.
- `HostFs.Stat`, and so `FileUtils.GetFileMetadata` and `FileUtils.FileExists`: `os.stat` of a directory succeeds in Python; the model reports `EISDIR` instead. Only regular files' metadata is modelled, so `FileExists`'s clause tying `isfile` to a successful metadata fetch holds in the model but not for a directory in Python.
- Paths are literal keys apart from trailing slashes: `.`, `..` and repeated inner slashes are not normalised, and symbolic links are not modelled. Lemmas that rely on path structure require a normalised path (`PosixPath.Plain`).
- The listing oracle (`FileSys.listing`) is the host's answer to `os.listdir`. Writes and deletes do not update it, and only its regular-file entries matter to the filter.
- Timestamps are opaque integers. Reading does not advance the access time, and file permissions are not modelled.
- `HostFs.Copy2`: a copy that fails part way (after `copyfile`, before `copystat`) is modelled as failing atomically.
- Log texts that embed Python reprs carry the value as a field instead. This covers the metadata dictionary, the extension tuple, and `repr` quoting of paths containing quotes or backslashes.
- `LogOperation` with `details=None` raises `TypeError` in Python; the model takes a field list.
- `PerformanceTracker.log_system_metrics` (psutil CPU and memory readings) appears only as a probe outcome in the health check. Durations are natural-number parameters instead of `pendulum` clock readings.
- `Tracker.Next`: closing the `wrap` generator before it is exhausted (which also runs its `finally`), `tqdm` rendering and its keyword arguments are not modelled. The source is a finite sequence.
- The logger backends are left out: `core/logger.py`, `core/logger_factory.py`, and the structlog configuration, stdout handler and returned logger of `configure_logger` after its processor list.
- The order of elements in the printed set of allowed levels depends on Python's string hashing, which varies between processes. The error messages fix one order.
- Environment-variable and `.env` precedence from pydantic-settings are replaced by an explicit `Config.Supplied` argument. The text of pydantic's validation error is abbreviated.
- Concurrency is not modelled: the logger's lock and races on the metric map.
- `cloud_file_manager.py`, the datetime and YAML utilities, and the dependency-injection container and entry point are not part of this model.

=== FILE: base_file_manager.dfy ===
/**
 * `BaseFileManager`: the operations every file backend offers, as a record
 * of functions. Each takes the state it runs against and returns what it
 * returned or raised together with the state it leaves.
 */
module BaseFileManager {
  import opened Results
  import opened PosixPath
  import opened HostFs
  import opened Logging
  import opened Runtime

  datatype Backend = Backend(
    saveFile: (World, Bytes, Path) -> Step<()>,
    fileExists: (World, Path) -> Step<bool>,
    getFileMetadata: (World, Path) -> Step<Metadata>,
    deleteFile: (World, Path) -> Step<()>,
    copyFile: (World, Path, Path) -> Step<()>,
    ensureDirectoryExists: (World, Path) -> Step<()>,
    listFiles: (World, Path, Option<seq<string>>) -> Step<seq<Path>>,
    sanitizeFilename: (World, string) -> Step<string>,
    logOperation: (World, string, seq<(string, Value)>) -> Step<()>,
    uploadFile: (World, Path, Path) -> Step<()>,
    downloadFile: (World, Path, Path) -> Step<()>,
    listCloudFiles: (World, Path) -> Step<seq<Path>>,
    deleteCloudFile: (World, Path) -> Step<()>)
}

=== FILE: config.dfy ===
/**
 * `AppConfig`: the application settings with their defaults, and the
 * `LOG_LEVEL` validator. Values come from the environment or `.env`; the
 * model takes the values that were supplied as an argument.
 */
module Config {
  import opened Results
  import opened PyText
  import opened LogLevels
  import opened Exceptions

  datatype AppConfig = AppConfig(
    appEnv: string,
    debug: bool,
    databaseUrl: Option<string>,
    celeryBrokerUrl: Option<string>,
    djangoSecretKey: Option<string>,
    logLevel: string,
    apiTimeout: int)

  /** The field defaults. */
  function Defaults(): (c: AppConfig)
    ensures c.appEnv == "development" && !c.debug && c.logLevel == "INFO" && c.apiTimeout == 30
    ensures c.databaseUrl.None? && c.celeryBrokerUrl.None? && c.djangoSecretKey.None?
  {
    AppConfig("development", false, None, None, None, "INFO", 30)
  }

  /** The `ValueError` text for a rejected level. */
  function InvalidLevelMessage(value: string): string {
    "Invalid LOG_LEVEL: " + value + ". Must be one of " + AllowedRepr + "."
  }

  /**
   * `validate_log_level`: the upper-cased value when it names an allowed
   * level, a `ValueError` naming the rejected value otherwise.
   */
  function ValidateLogLevel(value: string): (r: Result<string, Exception>)
    ensures r.Ok? <==> Upper(value) in Allowed
    ensures r.Ok? ==> r.value == Upper(value) && r.value in Allowed
    ensures r.Err? ==> r.error.ValueError? && "Invalid LOG_LEVEL: " + value <= r.error.message
  {
    if Upper(value) !in Allowed then Err(ValueError(InvalidLevelMessage(value)))
    else Ok(Upper(value))
  }

  /** Validating a validated level gives it back. */
  lemma ValidateLogLevelIdempotent(value: string)
    requires ValidateLogLevel(value).Ok?
    ensures ValidateLogLevel(ValidateLogLevel(value).value) == ValidateLogLevel(value)
  {
    UpperIdempotent(value);
  }

  /** A lower-case level is accepted and normalised; an unknown one is refused. */
  lemma ValidateLogLevelExamples()
    ensures ValidateLogLevel("debug") == Ok("DEBUG")
    ensures ValidateLogLevel("Warning") == Ok("WARNING")
    ensures ValidateLogLevel("INVALID").Err?
  {
    assert Upper("debug") == "DEBUG";
    assert Upper("Warning") == "WARNING";
    assert Upper("INVALID") == "INVALID";
  }

  /** The settings that were supplied (environment or `.env`); an absent one takes its default. */
  datatype Supplied = Supplied(
    appEnv: Option<string>,
    debug: Option<bool>,
    databaseUrl: Option<string>,
    celeryBrokerUrl: Option<string>,
    djangoSecretKey: Option<string>,
    logLevel: Option<string>,
    apiTimeout: Option<int>)

  /** No setting supplied. */
  function NothingSupplied(): Supplied {
    Supplied(None, None, None, None, None, None, None)
  }

  function OrElse<T>(o: Option<T>, default: T): T {
    if o.Some? then o.value else default
  }

  /**
   * `AppConfig()`: each field is the supplied value or its default. The
   * validator runs on a supplied `LOG_LEVEL` only (the default is not
   * validated); its refusal is reported as a validation error on that field.
   */
  function Load(s: Supplied): (r: Result<AppConfig, Exception>)
    ensures r.Ok? <==> s.logLevel.None? || IsAllowed(s.logLevel.value)
    ensures r.Ok? && s.logLevel.Some? ==> r.value.logLevel == Upper(s.logLevel.value)
    ensures r.Ok? && s.logLevel.None? ==> r.value.logLevel == Defaults().logLevel
    ensures r.Ok? ==> r.value.appEnv == OrElse(s.appEnv, "development") && r.value.debug == OrElse(s.debug, false)
    ensures r.Ok? ==> r.value.apiTimeout == OrElse(s.apiTimeout, 30)
    ensures r.Ok? ==> r.value.databaseUrl == s.databaseUrl && r.value.celeryBrokerUrl == s.celeryBrokerUrl
    ensures r.Ok? ==> r.value.djangoSecretKey == s.djangoSecretKey
    ensures r.Err? ==> r.error.ValidationError? && r.error.field == "LOG_LEVEL"
  {
    var d := Defaults();
    var level := if s.logLevel.Some? then ValidateLogLevel(s.logLevel.value) else Ok(d.logLevel);
    match level
    case Err(e) => Err(ValidationError("LOG_LEVEL", e.message))
    case Ok(lv) =>
      Ok(AppConfig(
        OrElse(s.appEnv, d.appEnv), OrElse(s.debug, d.debug),
        if s.databaseUrl.Some? then s.databaseUrl else d.databaseUrl,
        if s.celeryBrokerUrl.Some? then s.celeryBrokerUrl else d.celeryBrokerUrl,
        if s.djangoSecretKey.Some? then s.djangoSecretKey else d.djangoSecretKey,
        lv, OrElse(s.apiTimeout, d.apiTimeout)))
  }

  /** With nothing supplied the settings are exactly the defaults. */
  lemma LoadDefaults()
    ensures Load(NothingSupplied()) == Ok(Defaults())
  {
  }
}

=== FILE: exceptions.dfy ===
/** The Python exceptions the file layer, the configuration and the health check raise or report. */
module Exceptions {
  import opened HostFs

  datatype Exception =
    | OSError(message: string)                  // `OSError(msg)` raised with one message argument
    | HostError(cause: FsError)                  // an errno-carrying `OSError` subclass raised by the host
    | NotImplementedError(message: string)
    | ValueError(message: string)
    | ValidationError(field: string, reason: string)  // pydantic's wrapper around a validator's `ValueError`
  {
    /** `str(e)`. */
    function Str(): string {
      match this
      case OSError(m) => m
      case HostError(c) => c.Message()
      case NotImplementedError(m) => m
      case ValueError(m) => m
      case ValidationError(f, m) => "1 validation error for AppConfig\n" + f + "\n  Value error, " + m
    }
  }
}

=== FILE: file_manager_facade.dfy ===
/**
 * `FileManagerFacade` over any `BaseFileManager`: each operation runs the
 * backend's inside a tracker scope with a fixed label, passes the arguments
 * and the result through unchanged, and logs one structured info entry when
 * the backend returned. Only `sanitize_filename` has no scope.
 */
module FileManagerFacade {
  import opened Results
  import opened PosixPath
  import opened HostFs
  import opened Logging
  import opened Runtime
  import opened Tracker
  import opened BaseFileManager

  /** Log `entry(value)` after a call that returned; pass a raised exception on with nothing logged. */
  function OnSuccess<T>(s: Step<T>, entry: T -> LogEntry): Step<T> {
    match s.outcome
    case Ok(v) => Step(s.outcome, Emit(s.world, entry(v)))
    case Err(_) => s
  }

  /**
   * The shape of a decorated call: `call` runs once, on the state after the
   * scope's started entry; its result or exception comes back unchanged and
   * its effect on the files is kept; the scope's time is recorded under
   * `scope`; and between the backend's entries and the scope's completed
   * entry there is exactly one success entry if the call returned and none
   * if it raised.
   */
  predicate Decorated<T(==)>(w: World, scope: string, elapsed: Duration, call: World -> Step<T>, entry: T -> LogEntry, r: Step<T>) {
    var inner := call(Emit(w, StartedEntry(scope)));
    && r.outcome == inner.outcome
    && r.world.fs == inner.world.fs
    && r.world.now == inner.world.now
    && r.world.metrics == Record(inner.world.metrics, scope, elapsed)
    && r.world.log == inner.world.log + (if inner.outcome.Ok? then [entry(inner.outcome.value)] else []) + [CompletedEntry(scope, elapsed)]
  }

  /** `with self.tracker.track_execution(scope): result = call(); self.logger.info(...)`. */
  function Scoped<T(==)>(w: World, scope: string, elapsed: Duration, call: World -> Step<T>, entry: T -> LogEntry): (r: Step<T>)
    ensures Decorated(w, scope, elapsed, call, entry, r)
  {
    TrackExecution(w, scope, elapsed, (w1: World) => OnSuccess(call(w1), entry))
  }

  /** A string keyword field. */
  function Field(key: string, value: string): (string, Value) {
    (key, Str(value))
  }

  function SaveEntry(p: Path): LogEntry {
    LogEntry(Info, "Save File Operation", [Field("operation", "save_file"), Field("path", p)])
  }

  function ExistsEntry(p: Path, found: bool): LogEntry {
    LogEntry(Info, "File Exists Check", [Field("operation", "file_exists"), Field("path", p), ("exists", Bool(found))])
  }

  function MetadataEntry(p: Path, m: Metadata): LogEntry {
    LogEntry(Info, "Get File Metadata", [Field("operation", "get_file_metadata"), Field("path", p), ("metadata", Meta(m))])
  }

  function DeleteEntry(p: Path): LogEntry {
    LogEntry(Info, "Delete File Operation", [Field("operation", "delete_file"), Field("path", p)])
  }

  function CopyEntry(src: Path, dst: Path): LogEntry {
    LogEntry(Info, "Copy File Operation", [Field("operation", "copy_file"), Field("source", src), Field("destination", dst)])
  }

  function EnsureEntry(d: Path): LogEntry {
    LogEntry(Info, "Ensure Directory Exists", [Field("operation", "ensure_directory_exists"), Field("path", d)])
  }

  /** `extensions=None` or the tuple of suffixes. */
  function ExtensionsValue(extensions: Option<seq<string>>): Value {
    match extensions
    case None => Null
    case Some(xs) => Strs(xs)
  }

  function ListEntry(d: Path, extensions: Option<seq<string>>, files: seq<Path>): LogEntry {
    LogEntry(Info, "List Files Operation",
      [Field("operation", "list_files"), Field("path", d), ("extensions", ExtensionsValue(extensions)), ("file_count", Int(|files|))])
  }

  function SanitizeEntry(name: string, sanitized: string): LogEntry {
    LogEntry(Info, "Sanitize Filename", [Field("operation", "sanitize_filename"), Field("original", name), Field("sanitized", sanitized)])
  }

  function UploadEntry(localPath: Path, cloudPath: Path): LogEntry {
    LogEntry(Info, "Upload File Operation", [Field("operation", "upload_file"), Field("local_path", localPath), Field("cloud_path", cloudPath)])
  }

  function DownloadEntry(cloudPath: Path, localPath: Path): LogEntry {
    LogEntry(Info, "Download File Operation", [Field("operation", "download_file"), Field("cloud_path", cloudPath), Field("local_path", localPath)])
  }

  function ListCloudEntry(cloudPath: Path, files: seq<Path>): LogEntry {
    LogEntry(Info, "List Cloud Files Operation", [Field("operation", "list_cloud_files"), Field("cloud_path", cloudPath), ("file_count", Int(|files|))])
  }

  function DeleteCloudEntry(cloudPath: Path): LogEntry {
    LogEntry(Info, "Delete Cloud File Operation", [Field("operation", "delete_cloud_file"), Field("cloud_path", cloudPath)])
  }

  /** `save_file` in the "Save File" scope. */
  function SaveFile(b: Backend, w: World, content: Bytes, p: Path, elapsed: Duration): (r: Step<()>)
    ensures Decorated(w, "Save File", elapsed, (w1: World) => b.saveFile(w1, content, p), (_: ()) => SaveEntry(p), r)
  {
    Scoped(w, "Save File", elapsed, (w1: World) => b.saveFile(w1, content, p), (_: ()) => SaveEntry(p))
  }

  /** `file_exists` in the "Check File Exists" scope; the answer is logged as `exists`. */
  function FileExists(b: Backend, w: World, p: Path, elapsed: Duration): (r: Step<bool>)
    ensures Decorated(w, "Check File Exists", elapsed, (w1: World) => b.fileExists(w1, p), (found: bool) => ExistsEntry(p, found), r)
  {
    Scoped(w, "Check File Exists", elapsed, (w1: World) => b.fileExists(w1, p), (found: bool) => ExistsEntry(p, found))
  }

  /** `get_file_metadata` in the "Get File Metadata" scope; the dictionary is logged as `metadata`. */
  function GetFileMetadata(b: Backend, w: World, p: Path, elapsed: Duration): (r: Step<Metadata>)
    ensures Decorated(w, "Get File Metadata", elapsed, (w1: World) => b.getFileMetadata(w1, p), (m: Metadata) => MetadataEntry(p, m), r)
  {
    Scoped(w, "Get File Metadata", elapsed, (w1: World) => b.getFileMetadata(w1, p), (m: Metadata) => MetadataEntry(p, m))
  }

  /** `delete_file` in the "Delete File" scope. */
  function DeleteFile(b: Backend, w: World, p: Path, elapsed: Duration): (r: Step<()>)
    ensures Decorated(w, "Delete File", elapsed, (w1: World) => b.deleteFile(w1, p), (_: ()) => DeleteEntry(p), r)
  {
    Scoped(w, "Delete File", elapsed, (w1: World) => b.deleteFile(w1, p), (_: ()) => DeleteEntry(p))
  }

  /** `copy_file` in the "Copy File" scope. */
  function CopyFile(b: Backend, w: World, src: Path, dst: Path, elapsed: Duration): (r: Step<()>)
    ensures Decorated(w, "Copy File", elapsed, (w1: World) => b.copyFile(w1, src, dst), (_: ()) => CopyEntry(src, dst), r)
  {
    Scoped(w, "Copy File", elapsed, (w1: World) => b.copyFile(w1, src, dst), (_: ()) => CopyEntry(src, dst))
  }

  /** `ensure_directory_exists` in the "Ensure Directory Exists" scope. */
  function EnsureDirectoryExists(b: Backend, w: World, d: Path, elapsed: Duration): (r: Step<()>)
    ensures Decorated(w, "Ensure Directory Exists", elapsed, (w1: World) => b.ensureDirectoryExists(w1, d), (_: ()) => EnsureEntry(d), r)
  {
    Scoped(w, "Ensure Directory Exists", elapsed, (w1: World) => b.ensureDirectoryExists(w1, d), (_: ()) => EnsureEntry(d))
  }

  /** `list_files` in the "List Files" scope; `file_count` is the length of the returned list. */
  function ListFiles(b: Backend, w: World, d: Path, extensions: Option<seq<string>>, elapsed: Duration): (r: Step<seq<Path>>)
    ensures Decorated(w, "List Files", elapsed, (w1: World) => b.listFiles(w1, d, extensions), (files: seq<Path>) => ListEntry(d, extensions, files), r)
  {
    Scoped(w, "List Files", elapsed, (w1: World) => b.listFiles(w1, d, extensions), (files: seq<Path>) => ListEntry(d, extensions, files))
  }

  /** `sanitize_filename`: the one operation outside any scope, so no metric and no tracker entries. */
  function SanitizeFilename(b: Backend, w: World, name: string): (r: Step<string>)
    ensures var inner := b.sanitizeFilename(w, name);
      && r.outcome == inner.outcome
      && r.world.fs == inner.world.fs && r.world.metrics == inner.world.metrics
      && r.world.log == inner.world.log + (if inner.outcome.Ok? then [SanitizeEntry(name, inner.outcome.value)] else [])
  {
    OnSuccess(b.sanitizeFilename(w, name), (s: string) => SanitizeEntry(name, s))
  }

  /** `upload_file` in the "Upload File" scope. */
  function UploadFile(b: Backend, w: World, localPath: Path, cloudPath: Path, elapsed: Duration): (r: Step<()>)
    ensures Decorated(w, "Upload File", elapsed, (w1: World) => b.uploadFile(w1, localPath, cloudPath), (_: ()) => UploadEntry(localPath, cloudPath), r)
  {
    Scoped(w, "Upload File", elapsed, (w1: World) => b.uploadFile(w1, localPath, cloudPath), (_: ()) => UploadEntry(localPath, cloudPath))
  }

  /** `download_file` in the "Download File" scope. */
  function DownloadFile(b: Backend, w: World, cloudPath: Path, localPath: Path, elapsed: Duration): (r: Step<()>)
    ensures Decorated(w, "Download File", elapsed, (w1: World) => b.downloadFile(w1, cloudPath, localPath), (_: ()) => DownloadEntry(cloudPath, localPath), r)
  {
    Scoped(w, "Download File", elapsed, (w1: World) => b.downloadFile(w1, cloudPath, localPath), (_: ()) => DownloadEntry(cloudPath, localPath))
  }

  /** `list_cloud_files` in the "List Cloud Files" scope; `file_count` is the length of the returned list. */
  function ListCloudFiles(b: Backend, w: World, cloudPath: Path, elapsed: Duration): (r: Step<seq<Path>>)
    ensures Decorated(w, "List Cloud Files", elapsed, (w1: World) => b.listCloudFiles(w1, cloudPath), (files: seq<Path>) => ListCloudEntry(cloudPath, files), r)
  {
    Scoped(w, "List Cloud Files", elapsed, (w1: World) => b.listCloudFiles(w1, cloudPath), (files: seq<Path>) => ListCloudEntry(cloudPath, files))
  }

  /** `delete_cloud_file` in the "Delete Cloud File" scope. */
  function DeleteCloudFile(b: Backend, w: World, cloudPath: Path, elapsed: Duration): (r: Step<()>)
    ensures Decorated(w, "Delete Cloud File", elapsed, (w1: World) => b.deleteCloudFile(w1, cloudPath), (_: ()) => DeleteCloudEntry(cloudPath), r)
  {
    Scoped(w, "Delete Cloud File", elapsed, (w1: World) => b.deleteCloudFile(w1, cloudPath), (_: ()) => DeleteCloudEntry(cloudPath))
  }

  /** A backend that raises gets no success entry: the scope's completed entry follows the backend's own entries directly. */
  lemma RaisedNotLogged<T>(w: World, scope: string, elapsed: Duration, call: World -> Step<T>, entry: T -> LogEntry)
    requires call(Emit(w, StartedEntry(scope))).outcome.Err?
    ensures Scoped(w, scope, elapsed, call, entry).outcome == call(Emit(w, StartedEntry(scope))).outcome
    ensures Scoped(w, scope, elapsed, call, entry).world.log == call(Emit(w, StartedEntry(scope))).world.log + [CompletedEntry(scope, elapsed)]
    ensures GetMetric(Scoped(w, scope, elapsed, call, entry).world.metrics, scope) == Some(elapsed)
  {
  }
}

=== FILE: file_utils.dfy ===
/**
 * `LocalFileUtility`: the local file operations every backend builds on.
 * Each host failure except a missing file on delete is re-raised as an
 * `OSError` whose message names the operation and the path.
 */
module FileUtils {
  import opened Results
  import opened PosixPath
  import opened HostFs
  import opened Exceptions

  /** The state after a mutating call, and what it raised (if anything). */
  datatype Effect = Effect(fs: FileSys, error: Option<Exception>)

  /** `OSError(f"{context}: {e}")`. */
  function Failed(context: string, e: FsError): (x: Exception)
    ensures x.OSError? && context <= x.message
  {
    OSError(context + ": " + e.Message())
  }

  /**
   * `safe_write`: the temporary file is created in `os.path.dirname(p)` (the
   * working directory when that is empty), then moved onto `p`. The bytes
   * land at `p` in one step (a fresh file stamped `now`), or nothing changes
   * and an `OSError` "Failed to safely write file" is raised: when that
   * directory is missing, when `p` is empty, or when `p` is a directory. A
   * path ending in a slash always fails, since its dirname is the entry itself.
   */
  function SafeWrite(fs: FileSys, content: Bytes, p: Path, now: Time): (r: Effect)
    ensures r.error.None? <==> p != [] && !Slashed(p) && ParentIsDir(fs, p) && !IsDir(fs, p)
    ensures r.error.None? ==> r.fs.files == fs.files[p := FileData(content, now, now)]
    ensures r.error.None? ==> r.fs.dirs == fs.dirs && r.fs.listing == fs.listing
    ensures r.error.Some? ==> r.fs == fs
    ensures r.error.Some? ==> r.error.value.OSError? && "Failed to safely write file " + p <= r.error.value.message
    ensures Valid(fs) ==> Valid(r.fs)
  {
    var context := "Failed to safely write file " + p;
    var tmpDir := Dirname(p);
    if tmpDir != [] && !IsDir(fs, tmpDir) then Effect(fs, Some(Failed(context, MissingError(fs, tmpDir))))
    else if IsDir(fs, p) then Effect(fs, Some(Failed(context, OsError(EISDIR, p))))
    else if p == [] then Effect(fs, Some(Failed(context, OsError(ENOENT, p))))
    else
      assert !Slashed(p) by {
        if Slashed(p) {
          SlashedDirname(p);
          ResolveResolved(fs, p);
        }
      }
      var fs' := fs.(files := fs.files[p := FileData(content, now, now)]);
      assert Valid(fs) ==> Valid(fs') by {
        if Valid(fs) { PutFileKeepsValid(fs, p, FileData(content, now, now)); }
      }
      Effect(fs', None)
  }

  /**
   * `file_exists`: `os.path.isfile`, true exactly where a read would succeed.
   * Since only regular files' metadata is modelled, it is also true exactly
   * where a metadata fetch succeeds in the model.
   */
  function FileExists(fs: FileSys, p: Path): (b: bool)
    ensures b <==> ReadFile(fs, p).Ok?
    ensures b <==> GetFileMetadata(fs, p).Ok?
  {
    IsFile(fs, p)
  }

  /** `get_file_metadata`: the size is the stored byte count; anything but a file raises `OSError`. */
  function GetFileMetadata(fs: FileSys, p: Path): (r: Result<Metadata, Exception>)
    ensures r.Ok? <==> p in fs.files
    ensures r.Ok? ==> r.value == Metadata(|fs.files[p].content|, fs.files[p].modified, fs.files[p].accessed)
    ensures r.Err? ==> r.error.OSError? && "Failed to fetch metadata for " + p <= r.error.message
  {
    match Stat(fs, p)
    case Ok(m) => Ok(m)
    case Err(e) => Err(Failed("Failed to fetch metadata for " + p, e))
  }

  /**
   * `delete_file_safe`: afterwards `p` is not a file. A missing file
   * (`FileNotFoundError`) counts as success; a directory, or a path under a
   * regular file, raises `OSError` and changes nothing.
   */
  function DeleteFileSafe(fs: FileSys, p: Path): (r: Effect)
    ensures r.error.Some? <==> p !in fs.files && (IsDir(fs, p) || FileWithSlash(fs, p) || ParentErrno(fs, p) == Some(ENOTDIR))
    ensures r.error.None? ==> r.fs == fs.(files := fs.files - {p}) && p !in r.fs.files
    ensures r.error.Some? ==> r.fs == fs
    ensures r.error.Some? ==> r.error.value.OSError? && "Failed to delete file " + p <= r.error.value.message
    ensures Valid(fs) ==> Valid(r.fs)
  {
    match Remove(fs, p)
    case Ok(fs') =>
      assert p in fs.files && fs' == fs.(files := fs.files - {p});
      Effect(fs', None)
    case Err(e) =>
      DeleteErrno(fs, p);
      assert p !in fs.files;
      if e.OsError? && e.errno == ENOENT then
        assert !IsDir(fs, p) && !FileWithSlash(fs, p) && ParentErrno(fs, p) != Some(ENOTDIR);
        assert fs.(files := fs.files - {p}) == fs;
        Effect(fs, None)
      else
        var failure := Failed("Failed to delete file " + p, e);
        assert failure.OSError? && "Failed to delete file " + p <= failure.message;
        Effect(fs, Some(failure))
  }

  /** `os.remove` reports "not found" exactly when the path is no directory and nothing on the way is a regular file. */
  lemma DeleteErrno(fs: FileSys, p: Path)
    requires Remove(fs, p).Err?
    ensures Remove(fs, p).error.OsError?
    ensures Remove(fs, p).error.errno == ENOENT <==> !IsDir(fs, p) && !FileWithSlash(fs, p) && ParentErrno(fs, p) != Some(ENOTDIR)
  {
  }

  /**
   * `copy_file_safe`: the destination (or `dst/basename(src)` when `dst` is a
   * directory) ends up with the source's bytes and timestamps; the source and
   * every other file, every directory and every listing are untouched. A
   * slashed destination that does not exist is reported as a missing directory.
   */
  function CopyFileSafe(fs: FileSys, src: Path, dst: Path): (r: Effect)
    ensures r.error.None? <==> src in fs.files && !SameFile(fs, src, CopyTarget(fs, src, dst)) && Writable(fs, CopyTarget(fs, src, dst))
    ensures r.error.None? ==> CopyTarget(fs, src, dst) in r.fs.files && r.fs.files[CopyTarget(fs, src, dst)] == fs.files[src]
    ensures r.error.None? ==> src in r.fs.files && r.fs.files[src] == fs.files[src]
    ensures r.error.None? ==> forall q :: q in fs.files && q != CopyTarget(fs, src, dst) ==> q in r.fs.files && r.fs.files[q] == fs.files[q]
    ensures r.error.None? ==> r.fs.files.Keys == fs.files.Keys + {CopyTarget(fs, src, dst)} && r.fs.dirs == fs.dirs && r.fs.listing == fs.listing
    ensures src in fs.files && !SameFile(fs, src, CopyTarget(fs, src, dst)) && MissingDirTarget(fs, CopyTarget(fs, src, dst))
      ==> r.error == Some(Failed("Failed to copy file from " + src + " to " + dst, DirectoryMissing(CopyTarget(fs, src, dst))))
    ensures r.error.Some? ==> r.fs == fs
    ensures r.error.Some? ==> r.error.value.OSError? && "Failed to copy file from " + src + " to " + dst <= r.error.value.message
    ensures Valid(fs) ==> Valid(r.fs)
  {
    match Copy2(fs, src, dst)
    case Ok(fs') => Effect(fs', None)
    case Err(e) => Effect(fs, Some(Failed("Failed to copy file from " + src + " to " + dst, e)))
  }

  /** `not extensions`: `None` and the empty tuple both mean "no filter". */
  predicate NoFilter(extensions: Option<seq<string>>) {
    extensions.None? || extensions.value == []
  }

  /** `str.endswith(suffix)`. */
  predicate EndsWith(s: string, suffix: string) {
    |suffix| <= |s| && s[|s| - |suffix|..] == suffix
  }

  /** `str.endswith(tuple)`: some suffix of the tuple matches. */
  predicate EndsWithAny(s: string, suffixes: seq<string>) {
    exists k :: 0 <= k < |suffixes| && EndsWith(s, suffixes[k])
  }

  /** The comprehension's condition: a regular file whose name passes the extension filter. */
  predicate Keeps(fs: FileSys, d: Path, extensions: Option<seq<string>>, name: string) {
    IsFile(fs, Join(d, name)) && (NoFilter(extensions) || EndsWithAny(name, extensions.value))
  }

  /**
   * `[join(d, f) for f in names if isfile(join(d, f)) and (not extensions or f.endswith(extensions))]`:
   * exactly the joined names the filter keeps, all of them regular files.
   */
  function FilterListing(fs: FileSys, d: Path, extensions: Option<seq<string>>, names: seq<string>): (r: seq<Path>)
    ensures |r| <= |names|
    ensures forall x :: x in r ==> x in fs.files
    ensures forall f :: f in names && Keeps(fs, d, extensions, f) ==> Join(d, f) in r
    ensures forall x :: x in r ==> exists f :: f in names && Keeps(fs, d, extensions, f) && x == Join(d, f)
  {
    if names == [] then []
    else
      var rest := FilterListing(fs, d, extensions, names[1..]);
      if Keeps(fs, d, extensions, names[0]) then [Join(d, names[0])] + rest else rest
  }

  /** The filter keeps the listing's order: filtering a concatenation concatenates the results. */
  lemma {:induction false} FilterListingAppend(fs: FileSys, d: Path, extensions: Option<seq<string>>, a: seq<string>, b: seq<string>)
    ensures FilterListing(fs, d, extensions, a + b) == FilterListing(fs, d, extensions, a) + FilterListing(fs, d, extensions, b)
  {
    if a == [] {
      assert a + b == b;
    } else {
      assert a + b != [];
      assert (a + b)[0] == a[0];
      assert (a + b)[1..] == a[1..] + b;
      FilterListingAppend(fs, d, extensions, a[1..], b);
    }
  }

  /** `None` and the empty tuple give the same listing: both keep every regular file. */
  lemma {:induction false} NoFilterKeepsEveryFile(fs: FileSys, d: Path, extensions: Option<seq<string>>, names: seq<string>)
    requires NoFilter(extensions)
    ensures FilterListing(fs, d, extensions, names) == FilterListing(fs, d, None, names)
    ensures forall f :: f in names && IsFile(fs, Join(d, f)) ==> Join(d, f) in FilterListing(fs, d, extensions, names)
  {
    if names != [] {
      NoFilterKeepsEveryFile(fs, d, extensions, names[1..]);
    }
  }

  /**
   * `list_files_in_directory`: the filter over what `os.listdir(d)` reports;
   * a path that is not a directory raises `OSError`.
   */
  function ListFilesInDirectory(fs: FileSys, d: Path, extensions: Option<seq<string>>): (r: Result<seq<Path>, Exception>)
    ensures r.Ok? <==> IsDir(fs, d)
    ensures r.Ok? ==> r.value == FilterListing(fs, d, extensions, ListDir(fs, d).value)
    ensures r.Err? ==> r.error.OSError? && "Failed to list files in directory " + d <= r.error.message
  {
    match ListDir(fs, d)
    case Ok(names) => Ok(FilterListing(fs, d, extensions, names))
    case Err(e) => Err(Failed("Failed to list files in directory " + d, e))
  }

  /** ASCII letters and digits (the model's `str.isalnum`). */
  predicate IsAlnum(c: char) {
    'a' <= c <= 'z' || 'A' <= c <= 'Z' || '0' <= c <= '9'
  }

  /** A character `sanitize_filename_safe` keeps: alphanumeric or one of ` ._-()`. */
  predicate IsSafeChar(c: char) {
    IsAlnum(c) || c in " ._-()"
  }

  /** Every character of the name is kept by sanitising. */
  predicate IsSafeName(s: string) {
    forall i :: 0 <= i < |s| ==> IsSafeChar(s[i])
  }

  /**
   * `sanitize_filename_safe`: one pass, one output character per input
   * character, a safe character kept and any other replaced by `_`.
   */
  function SanitizeFilenameSafe(s: string): (r: string)
    ensures |r| == |s|
    ensures forall i :: 0 <= i < |s| ==> r[i] == (if IsSafeChar(s[i]) then s[i] else '_')
  {
    if s == [] then []
    else [if IsSafeChar(s[0]) then s[0] else '_'] + SanitizeFilenameSafe(s[1..])
  }

  /** Sanitising yields a safe name, leaves a name unchanged exactly when it is already safe, and is idempotent. */
  lemma SanitizeFixpoints(s: string)
    ensures IsSafeName(SanitizeFilenameSafe(s))
    ensures SanitizeFilenameSafe(s) == s <==> IsSafeName(s)
    ensures SanitizeFilenameSafe(SanitizeFilenameSafe(s)) == SanitizeFilenameSafe(s)
  {
    var r := SanitizeFilenameSafe(s);
    if IsSafeName(s) {
      assert forall i :: 0 <= i < |s| ==> r[i] == s[i];
    }
    if r == s {
      assert forall i :: 0 <= i < |s| ==> IsSafeChar(s[i]) by {
        forall i | 0 <= i < |s| ensures IsSafeChar(s[i]) {
          assert r[i] == s[i];
        }
      }
    }
    var rr := SanitizeFilenameSafe(r);
    assert forall i :: 0 <= i < |r| ==> rr[i] == r[i];
  }

  /** Sanitising works character by character, so it distributes over concatenation. */
  lemma SanitizeAppend(a: string, b: string)
    ensures SanitizeFilenameSafe(a + b) == SanitizeFilenameSafe(a) + SanitizeFilenameSafe(b)
  {
    var l := SanitizeFilenameSafe(a + b);
    var sa := SanitizeFilenameSafe(a);
    var sb := SanitizeFilenameSafe(b);
    var r := sa + sb;
    assert |l| == |r|;
    forall i | 0 <= i < |l| ensures l[i] == r[i] {
      if i < |a| {
        assert (a + b)[i] == a[i] && r[i] == sa[i];
      } else {
        assert (a + b)[i] == b[i - |a|] && r[i] == sb[i - |a|];
      }
    }
    assert l == r;
  }

  /** The documented example: `unsafe/file*name?.txt` becomes `unsafe_file_name_.txt`. */
  lemma SanitizeExample(s: string)
    requires s == "unsafe/file*" + "name?.txt"
    ensures SanitizeFilenameSafe(s) == "unsafe_file_" + "name_.txt"
  {
    var r := SanitizeFilenameSafe(s);
    var want := "unsafe_file_" + "name_.txt";
    assert |r| == |want|;
    assert forall i :: 0 <= i < |s| ==> r[i] == want[i];
  }

  /**
   * `ensure_directory_exists`: `os.makedirs(d, exist_ok=True)`. Files are
   * untouched; on success `d` is a directory; a failure raises `OSError`.
   */
  function EnsureDirectoryExists(fs: FileSys, d: Path): (r: Effect)
    ensures r.fs.files == fs.files && fs.dirs <= r.fs.dirs
    ensures r.error.None? && Plain(d) ==> IsDir(r.fs, d)
    ensures r.error.Some? ==> r.error.value.OSError? && "Failed to ensure directory exists at " + d <= r.error.value.message
    ensures Valid(fs) ==> Valid(r.fs)
  {
    var c := MakeDirs(fs, d);
    match c.error
    case None => Effect(c.fs, None)
    case Some(e) => Effect(c.fs, Some(Failed("Failed to ensure directory exists at " + d, e)))
  }

  /** On a well-formed host, ensuring a plain directory twice is the same as ensuring it once, and a failure changes nothing. */
  lemma EnsureDirectoryIdempotent(fs: FileSys, d: Path)
    requires Valid(fs) && Plain(d)
    ensures EnsureDirectoryExists(fs, d).error.None? ==>
      EnsureDirectoryExists(EnsureDirectoryExists(fs, d).fs, d) == EnsureDirectoryExists(fs, d)
    ensures EnsureDirectoryExists(fs, d).error.Some? ==> EnsureDirectoryExists(fs, d).fs == fs
  {
    MakeDirsAtomic(fs, d);
    if MakeDirs(fs, d).error.None? {
      MakeDirsIdempotent(fs, d);
    }
  }

  /**
   * On a well-formed host, ensuring a plain directory succeeds exactly when
   * no regular file sits at the path or at any of its ancestors; it then is
   * a directory.
   */
  lemma EnsureDirectorySucceeds(fs: FileSys, d: Path)
    requires Valid(fs) && Plain(d)
    ensures EnsureDirectoryExists(fs, d).error.None? <==> NoFileOnPath(fs, d)
    ensures EnsureDirectoryExists(fs, d).error.None? ==> IsDir(EnsureDirectoryExists(fs, d).fs, d)
  {
    MakeDirsSucceeds(fs, d);
  }

  /** `ensure_directory_exists("a/")` on an empty host creates `a`, as `mkdir("a/")` does on Linux. */
  lemma SlashedMakedirsExample()
    ensures EnsureDirectoryExists(FileSys(map[], {}, map[]), "a/") == Effect(FileSys(map[], {"a"}, map[]), None)
  {
    var empty := FileSys(map[], {}, map[]);
    assert "a/" == ['a', '/'] && "a" == ['a'];
    SlashedMakedirsIsMkdir(empty, 'a');
    SlashedMkdirOnEmpty('a');
  }

  /**
   * A name with a trailing slash that resolves to an existing entry is never
   * "not found": deleting `d/` for a directory `d` (EISDIR) or `f/` for a
   * regular file `f` (ENOTDIR) raises and changes nothing.
   */
  lemma SlashedDeleteRaises(fs: FileSys, p: Path)
    requires Slashed(p) && p !in fs.files
    requires Resolve(p) in fs.dirs || Resolve(p) in fs.files
    ensures DeleteFileSafe(fs, p).error.Some? && DeleteFileSafe(fs, p).fs == fs
  {
  }

  /** `d/` for a directory `d`, and `f/` for a regular file `f`, on one-entry hosts. */
  lemma SlashedDeleteExamples(data: FileData)
    ensures DeleteFileSafe(FileSys(map[], {"d"}, map[]), "d/").error.Some?
    ensures DeleteFileSafe(FileSys(map["f" := data], {}, map[]), "f/").error.Some?
  {
    OneLetterSlashed('d');
    OneLetterSlashed('f');
    assert "d/" == ['d', '/'] && "f/" == ['f', '/'];
    SlashedDeleteRaises(FileSys(map[], {"d"}, map[]), "d/");
    SlashedDeleteRaises(FileSys(map["f" := data], {}, map[]), "f/");
  }

  /** `makedirs("c/")` has no parent to create: it is one `mkdir("c/")` that tolerates an existing directory. */
  lemma SlashedMakedirsIsMkdir(fs: FileSys, c: char)
    requires c != '/'
    ensures MakeDirs(fs, [c, '/']) == MkdirExistOk(fs, [c, '/'])
  {
    OneLetterSlashed(c);
  }

  /** On an empty host, `mkdir("c/")` creates exactly the directory `c`. */
  lemma SlashedMkdirOnEmpty(c: char)
    requires c != '/'
    ensures MkdirExistOk(FileSys(map[], {}, map[]), [c, '/']) == Change(FileSys(map[], {[c]}, map[]), None)
  {
    OneLetterSlashed(c);
    var empty := FileSys(map[], {}, map[]);
    assert !IsRoot([c]) by { assert [c][0] != '/'; }
    assert !Exists(empty, [c]);
    assert Parent([c, '/']) == [];
    assert empty.dirs + {[c]} == {[c]};
  }

  /** How `posixpath` and the kernel read a one-letter name with a trailing slash. */
  lemma OneLetterSlashed(c: char)
    requires c != '/'
    ensures Slashed([c, '/']) && Resolve([c, '/']) == [c]
    ensures Split([c, '/']) == ([c], []) && Split([c]) == ([], [c])
    ensures TrySplit([c, '/']) == ([], [c])
  {
    assert [c, '/'][0] != '/';
    assert !AllSlashes([c, '/']);
    assert [c, '/'][..1] == [c];
    assert SplitIndex([c]) == 0 by { assert [c][..0] == []; }
    assert StripTrailingSlashes([c]) == [c];
    assert StripTrailingSlashes([c, '/']) == [c];
    assert SplitIndex([c, '/']) == 2;
    assert [c, '/'][..2] == [c, '/'] && [c, '/'][2..] == [];
    assert [c][..0] == [] && [c][0..] == [c];
  }

  /** A successful write is read back unchanged and reported with its byte count. */
  lemma SafeWriteReadBack(fs: FileSys, content: Bytes, p: Path, now: Time)
    requires SafeWrite(fs, content, p, now).error.None?
    ensures FileExists(SafeWrite(fs, content, p, now).fs, p)
    ensures ReadFile(SafeWrite(fs, content, p, now).fs, p) == Ok(content)
    ensures GetFileMetadata(SafeWrite(fs, content, p, now).fs, p).Ok?
    ensures GetFileMetadata(SafeWrite(fs, content, p, now).fs, p).value.size == |content|
  {
  }

  /** After a successful delete the file is gone, and deleting it again succeeds without changing anything. */
  lemma DeleteTwice(fs: FileSys, p: Path)
    requires Valid(fs) && DeleteFileSafe(fs, p).error.None?
    ensures !FileExists(DeleteFileSafe(fs, p).fs, p)
    ensures DeleteFileSafe(DeleteFileSafe(fs, p).fs, p) == DeleteFileSafe(fs, p)
  {
    var fs1 := DeleteFileSafe(fs, p).fs;
    if p in fs.files {
      assert ParentIsDir(fs1, p) && !IsDir(fs1, p);
      assert Remove(fs1, p) == Err(OsError(ENOENT, p));
      assert fs1.(files := fs1.files - {p}) == fs1;
    } else {
      assert fs1 == fs;
    }
  }

  /**
   * `copy_file_safe("s", "x/")` with no `x` in the working directory raises
   * "Failed to copy file from s to x/: Directory does not exist: x/".
   */
  lemma CopyToMissingDirectoryExample(data: FileData)
    ensures CopyFileSafe(FileSys(map["s" := data], {}, map[]), "s", "x/").error
      == Some(OSError("Failed to copy file from s to x/: " + "Directory does not exist: x/"))
  {
    CopyIntoMissingX(data);
    MissingXMessage();
  }

  /** The host side of the example: `copy2("s", "x/")` reports the missing directory `x/`. */
  lemma CopyIntoMissingX(data: FileData)
    ensures Copy2(FileSys(map["s" := data], {}, map[]), "s", "x/") == Err(DirectoryMissing("x/"))
  {
    var fs := FileSys(map["s" := data], {}, map[]);
    OneLetterSlashed('x');
    assert "x/" == ['x', '/'] && "x" == ['x'];
    assert Parent("x/") == [];
    TopLevelFilesValid(fs.files);
    CopyToMissingDirectory(fs, "s", "x/");
  }

  /** The text `copy_file_safe` raises for the example. */
  lemma MissingXMessage()
    ensures Failed("Failed to copy file from " + "s" + " to " + "x/", DirectoryMissing("x/")).message
      == "Failed to copy file from s to x/: " + "Directory does not exist: x/"
  {
    assert "Failed to copy file from " + "s" + " to " + "x/" + ": " == "Failed to copy file from s to x/: ";
    assert DirectoryMissing("x/").Message() == "Directory does not exist: x/";
  }

  /**
   * With a regular file `f` beside `s`, `open("f/", "wb")` raises
   * `IsADirectoryError` and `copy2("s", "f/")` reports "Directory does not
   * exist: f/".
   */
  lemma SlashedFileTargetExample(data: FileData, content: Bytes, now: Time)
    ensures WriteFile(FileSys(map["s" := data, "f" := data], {}, map[]), "f/", content, now) == Err(OsError(EISDIR, "f/"))
    ensures Copy2(FileSys(map["s" := data, "f" := data], {}, map[]), "s", "f/") == Err(DirectoryMissing("f/"))
  {
    var fs := FileSys(map["s" := data, "f" := data], {}, map[]);
    OneLetterSlashed('f');
    assert "f/" == ['f', '/'] && "f" == ['f'] && "f" + "/" == "f/";
    TopLevelFilesValid(fs.files);
    SlashedFileAsTarget(fs, "s", "f", content, now);
  }

  /** Regular files with one-letter names in the working directory make a well-formed host. */
  lemma TopLevelFilesValid(files: map<Path, FileData>)
    requires forall p :: p in files ==> |p| == 1 && p[0] != '/'
    ensures Valid(FileSys(files, {}, map[]))
  {
    var fs := FileSys(files, {}, map[]);
    forall p | p in files ensures !IsRoot(p) && !Slashed(p) && ParentIsDir(fs, p) {
      var c := p[0];
      assert p == [c];
      OneLetterSlashed(c);
      assert !IsRoot(p) by { assert p[0] != '/'; }
      assert Parent(p) == Dirname(p) == [];
    }
  }
}

=== FILE: health_check.dfy ===
/**
 * `HealthCheck.run`: three independent probes, each turned into a status
 * string. What each component does when probed is an input: the exception
 * it raises, if any.
 */
module HealthCheck {
  import opened Results
  import opened PyText
  import opened Exceptions
  import opened Config

  /** How each probed call of the components behaves. */
  datatype Components = Components(
    logInfo: Option<Exception>,          // `logger.log_info(...)` raises this, or returns
    config: Result<AppConfig, Exception>, // reading `APP_ENV` and `DEBUG`
    track: Option<Exception>,            // `performance_tracker.track(...)`
    systemMetrics: Option<Exception>)    // `performance_tracker.log_system_metrics()`

  /** The component calls a run makes, in order. */
  datatype Call = LogInfo | TrackOperation | LogSystemMetrics

  const Keys: set<string> := {"logger", "config", "performance_tracker"}

  /** `"Healthy"` when the probe returned, `"Unhealthy: " + str(e)` when it raised `e`. */
  function Status(raised: Option<Exception>): (s: string)
    ensures s == "Healthy" <==> raised.None?
    ensures raised.Some? ==> s == "Unhealthy: " + raised.value.Str()
  {
    match raised
    case None => "Healthy"
    case Some(e) => "Unhealthy: " + e.Str()
  }

  /** `_check_logger`. */
  function CheckLogger(c: Components): (s: string)
    ensures s == "Healthy" <==> c.logInfo.None?
    ensures c.logInfo.Some? ==> s == "Unhealthy: " + c.logInfo.value.Str()
  {
    Status(c.logInfo)
  }

  /** `_check_config`: the environment name and `str(DEBUG)`, or the reason the read failed. */
  function CheckConfig(c: Components): (s: string)
    ensures c.config.Ok? ==> s == "Healthy: APP_ENV=" + c.config.value.appEnv + ", DEBUG=" + BoolStr(c.config.value.debug)
    ensures c.config.Err? ==> s == Status(Some(c.config.error))
  {
    match c.config
    case Ok(cfg) => "Healthy: APP_ENV=" + cfg.appEnv + ", DEBUG=" + BoolStr(cfg.debug)
    case Err(e) => "Unhealthy: " + e.Str()
  }

  /** The first failing tracker call, if any: `log_system_metrics` is reached only when `track` returned. */
  function TrackerRaised(c: Components): (raised: Option<Exception>)
    ensures c.track.Some? ==> raised == c.track
    ensures c.track.None? ==> raised == c.systemMetrics
  {
    if c.track.Some? then c.track else c.systemMetrics
  }

  /** `_check_performance_tracker`. */
  function CheckPerformanceTracker(c: Components): (s: string)
    ensures s == "Healthy" <==> c.track.None? && c.systemMetrics.None?
  {
    Status(TrackerRaised(c))
  }

  /** The calls `run` makes on the components. */
  function Calls(c: Components): (calls: seq<Call>)
    ensures LogSystemMetrics in calls <==> c.track.None?
    ensures |calls| >= 2 && calls[..2] == [LogInfo, TrackOperation]
  {
    [LogInfo, TrackOperation] + (if c.track.None? then [LogSystemMetrics] else [])
  }

  /**
   * `run`: never raises, and maps exactly the three component names to their
   * statuses, each computed from its own component alone.
   */
  function Run(c: Components): (r: map<string, string>)
    ensures r.Keys == Keys
    ensures r["logger"] == CheckLogger(c)
    ensures r["config"] == CheckConfig(c)
    ensures r["performance_tracker"] == CheckPerformanceTracker(c)
  {
    map["logger" := CheckLogger(c), "config" := CheckConfig(c), "performance_tracker" := CheckPerformanceTracker(c)]
  }

  /** A failing component changes only its own entry: components that behave alike report alike. */
  lemma ChecksIndependent(c1: Components, c2: Components)
    ensures c1.logInfo == c2.logInfo ==> Run(c1)["logger"] == Run(c2)["logger"]
    ensures c1.config == c2.config ==> Run(c1)["config"] == Run(c2)["config"]
    ensures c1.track == c2.track && c1.systemMetrics == c2.systemMetrics ==>
      Run(c1)["performance_tracker"] == Run(c2)["performance_tracker"]
  {
  }

  /** A failed `track` is reported with its own message, whatever `log_system_metrics` would have done. */
  lemma TrackFailureShortCircuits(c: Components, e: Exception)
    requires c.track == Some(e)
    ensures Run(c)["performance_tracker"] == "Unhealthy: " + e.Str()
    ensures LogSystemMetrics !in Calls(c)
  {
  }

  /** With default settings and healthy components every entry reports healthy. */
  lemma DefaultsHealthy()
    ensures Run(Components(None, Ok(Defaults()), None, None)) ==
      map["logger" := "Healthy", "config" := "Healthy: APP_ENV=development, DEBUG=False", "performance_tracker" := "Healthy"]
  {
    var c := Components(None, Ok(Defaults()), None, None);
    assert CheckConfig(c) == "Healthy: APP_ENV=development, DEBUG=False";
  }
}

=== FILE: host_fs.dfy ===
/**
 * The host filesystem as the file layer sees it through `os`, `open` and
 * `shutil`: regular files (bytes plus two timestamps), a set of directories,
 * and, per directory, the names `os.listdir` reports in the host's order.
 * Each primitive below is one host call; its failure is the errno the host
 * reports (Linux semantics).
 */
module HostFs {
  import opened Results
  import opened PosixPath

  newtype byte = x: int | 0 <= x < 256

  type Bytes = seq<byte>

  /** An opaque host timestamp (`st_mtime`, `st_atime`). */
  type Time = int

  datatype FileData = FileData(content: Bytes, modified: Time, accessed: Time)

  /**
   * `listing` is what `os.listdir` returns for each directory, in the host's
   * order; a directory without an entry lists as empty.
   */
  datatype FileSys = FileSys(files: map<Path, FileData>, dirs: set<Path>, listing: map<Path, seq<string>>)

  /** The dictionary `get_file_metadata` returns: `size`, `last_modified`, `last_accessed`. */
  datatype Metadata = Metadata(size: nat, lastModified: Time, lastAccessed: Time)

  datatype Errno = ENOENT | EEXIST | ENOTDIR | EISDIR
  {
    function Code(): string {
      match this
      case ENOENT => "2"
      case EEXIST => "17"
      case ENOTDIR => "20"
      case EISDIR => "21"
    }

    function Text(): string {
      match this
      case ENOENT => "No such file or directory"
      case EEXIST => "File exists"
      case ENOTDIR => "Not a directory"
      case EISDIR => "Is a directory"
    }
  }

  /**
   * A failure raised by the host: an errno on one path, shutil's
   * `SameFileError`, or the `FileNotFoundError` that `shutil.copyfile`
   * (Python 3.10 and later) raises in place of `IsADirectoryError` when the
   * destination it could not open does not exist.
   */
  datatype FsError = OsError(errno: Errno, path: Path) | SameFileError(src: Path, dst: Path) | DirectoryMissing(dst: Path)
  {
    /** `str(e)` of the raised exception. */
    function Message(): string {
      match this
      case OsError(errno, path) => "[Errno " + errno.Code() + "] " + errno.Text() + ": " + Quote(path)
      case SameFileError(src, dst) => Quote(src) + " and " + Quote(dst) + " are the same file"
      case DirectoryMissing(dst) => "Directory does not exist: " + dst
    }
  }

  /** `repr` of a string without quotes or escapes in it. */
  function Quote(s: string): string {
    "'" + s + "'"
  }

  /** `os.path.isfile`. */
  predicate IsFile(fs: FileSys, p: Path) {
    p in fs.files
  }

  /**
   * A path the kernel reads as "this entry, which must be a directory": it
   * ends in a slash and is not the root.
   */
  predicate Slashed(p: Path) {
    p != [] && p[|p| - 1] == '/' && !AllSlashes(p)
  }

  /**
   * The entry the kernel looks up for `p`: trailing slashes dropped, the
   * root kept.
   */
  function Resolve(p: Path): (q: Path)
    ensures !Slashed(q) && |q| <= |p|
    ensures !Slashed(p) ==> q == p
    ensures Slashed(p) ==> q != [] && !IsRoot(q)
  {
    if Slashed(p) then StripTrailingSlashes(p) else p
  }

  /** Resolving twice is resolving once, so `p` and its resolved entry are the same directory. */
  lemma ResolveResolved(fs: FileSys, p: Path)
    ensures Resolve(Resolve(p)) == Resolve(p)
    ensures IsDir(fs, p) <==> IsDir(fs, Resolve(p))
  {
  }

  /** A normalised path never ends in a slash, so the kernel looks it up as it is. */
  lemma PlainResolved(p: Path)
    requires Plain(p)
    ensures !Slashed(p) && Resolve(p) == p
  {
    PlainEndsInComponent(p);
  }

  /** For a slashed path, `posixpath.dirname` already is the resolved entry. */
  lemma SlashedDirname(p: Path)
    requires Slashed(p)
    ensures Dirname(p) == Resolve(p)
  {
    assert SplitIndex(p) == |p|;
    assert p[..|p|] == p;
  }

  /** `os.path.isdir`: `d/` names the directory `d`; the root always exists. */
  predicate IsDir(fs: FileSys, p: Path) {
    Resolve(p) in fs.dirs || IsRoot(p)
  }

  /** `os.path.exists`. */
  predicate Exists(fs: FileSys, p: Path) {
    IsFile(fs, p) || IsDir(fs, p)
  }

  /** The directory the kernel looks in for `p`: the dirname of the resolved entry. */
  function Parent(p: Path): (d: Path)
    ensures d == [] || IsRoot(d) || |d| < |p|
    ensures !Slashed(p) ==> d == Dirname(p)
  {
    Dirname(Resolve(p))
  }

  /** The directory that would hold `p` exists (a relative name's parent is the working directory). */
  predicate ParentIsDir(fs: FileSys, p: Path) {
    Parent(p) == [] || IsDir(fs, Parent(p))
  }

  /**
   * Why the host cannot reach the parent of `p`: `ENOTDIR` when the first
   * missing-or-wrong ancestor is a regular file, `ENOENT` when it is absent.
   */
  function ParentErrno(fs: FileSys, p: Path): (r: Option<Errno>)
    decreases |p|
    ensures r.None? <==> ParentIsDir(fs, p)
    ensures r.Some? ==> r.value == ENOENT || r.value == ENOTDIR
  {
    var d := Parent(p);
    if d == [] || IsDir(fs, d) then None
    else if d in fs.files then Some(ENOTDIR)
    else match ParentErrno(fs, d)
      case None => Some(ENOENT)
      case Some(e) => Some(e)
  }

  /**
   * `f/` where `f` is a regular file. A lookup that does not create (`stat`,
   * `unlink`, `listdir`, a read-only `open`) refuses it with `ENOTDIR`;
   * `open(..., "wb")` gives `EISDIR` and `mkdir` gives `EEXIST` instead.
   */
  predicate FileWithSlash(fs: FileSys, p: Path) {
    Slashed(p) && Resolve(p) in fs.files
  }

  /** The error for a path that names nothing (or names a file as if it were a directory). */
  function MissingError(fs: FileSys, p: Path): (e: FsError)
    ensures e.OsError? && e.path == p && (e.errno == ENOENT || e.errno == ENOTDIR)
    ensures e.errno == ENOTDIR <==> FileWithSlash(fs, p) || ParentErrno(fs, p) == Some(ENOTDIR)
    ensures ParentIsDir(fs, p) && !FileWithSlash(fs, p) ==> e.errno == ENOENT
  {
    if FileWithSlash(fs, p) then OsError(ENOTDIR, p)
    else match ParentErrno(fs, p)
      case None => OsError(ENOENT, p)
      case Some(errno) => OsError(errno, p)
  }

  /** A file may be created or truncated at `p`; a name ending in a slash can never be a regular file. */
  predicate Writable(fs: FileSys, p: Path) {
    !IsDir(fs, p) && !Slashed(p) && (p in fs.files || (p != [] && ParentIsDir(fs, p)))
  }

  /**
   * Why `open(p, "wb")` fails, or `None` when it succeeds. Once the parent
   * resolves, `O_CREAT` on a slashed name gives `EISDIR`, whether the entry
   * is absent, a directory or a regular file; an unreachable parent gives
   * the parent's errno.
   */
  function OpenWriteError(fs: FileSys, p: Path): (r: Option<FsError>)
    ensures r.None? <==> Writable(fs, p)
    ensures r.Some? ==> r.value.OsError? && r.value.path == p
    ensures r.Some? && r.value.errno == ENOENT && !Slashed(p) ==> !Exists(fs, p)
    ensures IsDir(fs, p) || (Slashed(p) && ParentIsDir(fs, p)) ==> r == Some(OsError(EISDIR, p))
    ensures !IsDir(fs, p) && !ParentIsDir(fs, p) && p !in fs.files ==> r == Some(OsError(ParentErrno(fs, p).value, p))
    ensures p == [] && [] !in fs.files && [] !in fs.dirs ==> r == Some(OsError(ENOENT, p))
  {
    if IsDir(fs, p) then Some(OsError(EISDIR, p))
    else if Slashed(p) then
      if !ParentIsDir(fs, p) then Some(OsError(ParentErrno(fs, p).value, p)) else Some(OsError(EISDIR, p))
    else if p in fs.files || (p != [] && ParentIsDir(fs, p)) then None
    else Some(MissingError(fs, p))
  }

  /**
   * `open(p, "wb")` then one `write(content)`: a new file is stamped `now`
   * for both times; an existing one keeps its access time.
   */
  function WriteFile(fs: FileSys, p: Path, content: Bytes, now: Time): (r: Result<FileSys, FsError>)
    ensures r.Ok? <==> Writable(fs, p)
    ensures r.Ok? ==> r.value.files.Keys == fs.files.Keys + {p}
    ensures r.Ok? ==> r.value.files[p].content == content && r.value.files[p].modified == now
    ensures r.Ok? ==> forall q :: q in fs.files && q != p ==> r.value.files[q] == fs.files[q]
    ensures r.Ok? ==> r.value.dirs == fs.dirs && r.value.listing == fs.listing
    ensures r.Err? ==> r.error.OsError? && r.error.path == p
    ensures IsDir(fs, p) || (Slashed(p) && ParentIsDir(fs, p)) ==> r == Err(OsError(EISDIR, p))
    ensures !IsDir(fs, p) && !ParentIsDir(fs, p) && p !in fs.files ==> r == Err(OsError(ParentErrno(fs, p).value, p))
    ensures p == [] && [] !in fs.files && [] !in fs.dirs ==> r == Err(OsError(ENOENT, p))
    ensures r.Ok? && Valid(fs) ==> Valid(r.value)
  {
    match OpenWriteError(fs, p)
    case Some(e) => Err(e)
    case None =>
      var accessed := if p in fs.files then fs.files[p].accessed else now;
      var fs' := fs.(files := fs.files[p := FileData(content, now, accessed)]);
      assert Valid(fs) ==> Valid(fs') by {
        if Valid(fs) {
          assert p != [] && ParentIsDir(fs, p) by {
            if p in fs.files { assert !IsRoot(p) && ParentIsDir(fs, p); }
          }
          PutFileKeepsValid(fs, p, FileData(content, now, accessed));
        }
      }
      Ok(fs')
  }

  /** `open(p, "rb").read()`. */
  function ReadFile(fs: FileSys, p: Path): (r: Result<Bytes, FsError>)
    ensures r.Ok? <==> p in fs.files
    ensures r.Ok? ==> r.value == fs.files[p].content
    ensures r.Err? && IsDir(fs, p) ==> r.error == OsError(EISDIR, p)
    ensures r.Err? && !IsDir(fs, p) ==> r.error == MissingError(fs, p)
  {
    if p in fs.files then Ok(fs.files[p].content)
    else if IsDir(fs, p) then Err(OsError(EISDIR, p))
    else Err(MissingError(fs, p))
  }

  /** `os.remove` (Linux `unlink`: a directory gives `EISDIR`). */
  function Remove(fs: FileSys, p: Path): (r: Result<FileSys, FsError>)
    ensures r.Ok? <==> p in fs.files
    ensures r.Ok? ==> r.value == fs.(files := fs.files - {p})
    ensures r.Err? && !IsDir(fs, p) ==> r.error == MissingError(fs, p)
    ensures r.Err? && IsDir(fs, p) ==> r.error == OsError(EISDIR, p)
    ensures r.Ok? && Valid(fs) ==> Valid(r.value)
  {
    if p in fs.files then
      var fs' := fs.(files := fs.files - {p});
      assert Valid(fs) ==> Valid(fs') by { RemoveFileKeepsValid(fs, p); }
      Ok(fs')
    else if IsDir(fs, p) then Err(OsError(EISDIR, p))
    else Err(MissingError(fs, p))
  }

  /** `os.stat` restricted to regular files (stat data of directories is not modelled). */
  function Stat(fs: FileSys, p: Path): (r: Result<Metadata, FsError>)
    ensures r.Ok? <==> p in fs.files
    ensures r.Ok? ==> r.value.size == |fs.files[p].content|
    ensures r.Ok? ==> r.value.lastModified == fs.files[p].modified && r.value.lastAccessed == fs.files[p].accessed
  {
    if p in fs.files then
      var f := fs.files[p];
      Ok(Metadata(|f.content|, f.modified, f.accessed))
    else if IsDir(fs, p) then Err(OsError(EISDIR, p))
    else Err(MissingError(fs, p))
  }

  /** `os.listdir`: the host's names for a directory; fails on a file or a missing path. */
  function ListDir(fs: FileSys, d: Path): (r: Result<seq<string>, FsError>)
    ensures r.Ok? <==> IsDir(fs, d)
    ensures r.Ok? && Resolve(d) in fs.listing ==> r.value == fs.listing[Resolve(d)]
    ensures r.Err? && (d in fs.files || FileWithSlash(fs, d)) ==> r.error == OsError(ENOTDIR, d)
  {
    if IsDir(fs, d) then Ok(if Resolve(d) in fs.listing then fs.listing[Resolve(d)] else [])
    else if d in fs.files then Err(OsError(ENOTDIR, d))
    else Err(MissingError(fs, d))
  }

  /** `os.mkdir`: creates one directory whose parent exists; `mkdir("a/")` creates `a`. */
  function Mkdir(fs: FileSys, p: Path): (r: Result<FileSys, FsError>)
    ensures r.Ok? <==> !Exists(fs, Resolve(p)) && p != [] && ParentIsDir(fs, p)
    ensures r.Ok? ==> r.value == fs.(dirs := fs.dirs + {Resolve(p)}) && IsDir(r.value, p)
    ensures r.Err? && Exists(fs, Resolve(p)) ==> r.error == OsError(EEXIST, p)
    ensures r.Ok? && Valid(fs) ==> Valid(r.value)
  {
    if Exists(fs, Resolve(p)) then Err(OsError(EEXIST, p))
    else if p == [] || !ParentIsDir(fs, p) then Err(MissingError(fs, p))
    else Ok(fs.(dirs := fs.dirs + {Resolve(p)}))
  }

  /** A multi-step change that may stop part way: the state reached and the error that stopped it. */
  datatype Change = Change(fs: FileSys, error: Option<FsError>)

  /** `os.mkdir(name)` inside `os.makedirs(..., exist_ok=True)`: a failure on an existing directory is absorbed. */
  function MkdirExistOk(fs: FileSys, name: Path): (r: Change)
    ensures r.error.None? <==> IsDir(fs, name) || (!Exists(fs, Resolve(name)) && name != [] && ParentIsDir(fs, name))
    ensures r.error.None? ==> IsDir(r.fs, name)
    ensures r.error.None? ==> r.fs == fs.(dirs := fs.dirs + {Resolve(name)}) || (IsDir(fs, name) && r.fs == fs)
    ensures IsDir(fs, name) ==> r == Change(fs, None)
    ensures r.error.Some? ==> r.fs == fs
    ensures Valid(fs) ==> Valid(r.fs)
  {
    ResolveResolved(fs, name);
    match Mkdir(fs, name)
    case Ok(fs') => Change(fs', None)
    case Err(e) => if IsDir(fs, name) then Change(fs, None) else Change(fs, Some(e))
  }

  /** The split `os.makedirs` works with: a trailing slash is split off once more. */
  function TrySplit(name: Path): (r: (Path, string))
    ensures r.1 != [] ==> |r.0| < |name|
    ensures Plain(name) ==> r == Split(name)
  {
    var (h, t) := Split(name);
    if t == [] then Split(h) else (h, t)
  }

  /** The errno `FileExistsError` stands for. */
  predicate IsExistError(e: FsError) {
    e.OsError? && e.errno == EEXIST
  }

  /**
   * `os.makedirs(name, exist_ok=True)`: create missing ancestors first (a
   * `FileExistsError` from that recursion is ignored, a tail of `.` stops
   * after it), then `mkdir(name)`, accepting a directory already there.
   * Regular files are never touched, directories are only added, and none
   * longer than `name`; on success `name` is a directory unless its last
   * component is `.`.
   */
  function MakeDirs(fs: FileSys, name: Path): (r: Change)
    decreases |name|
    ensures r.fs.files == fs.files && r.fs.listing == fs.listing
    ensures fs.dirs <= r.fs.dirs
    ensures forall d :: d in r.fs.dirs && d !in fs.dirs ==> |d| <= |name|
    ensures r.error.None? && TrySplit(name).1 != "." ==> IsDir(r.fs, name)
    ensures Valid(fs) ==> Valid(r.fs)
  {
    var head := TrySplit(name).0;
    var tail := TrySplit(name).1;
    if head != [] && tail != [] && !Exists(fs, head) then
      var sub := MakeDirs(fs, head);
      assert forall d :: d in sub.fs.dirs && d !in fs.dirs ==> |d| < |name|;
      MakeLast(sub, name, tail)
    else MkdirExistOk(fs, name)
  }

  /**
   * The rest of `makedirs` once the missing ancestors have been handled: an
   * error other than `FileExistsError` stops it, a tail of `.` ends it, and
   * otherwise the final `mkdir` runs.
   */
  function MakeLast(sub: Change, name: Path, tail: string): (r: Change)
    ensures r.fs.files == sub.fs.files && r.fs.listing == sub.fs.listing
    ensures sub.fs.dirs <= r.fs.dirs <= sub.fs.dirs + {Resolve(name)}
    ensures r.error.None? && tail != "." ==> IsDir(r.fs, name)
    ensures r.error.None? ==> sub.error.None? || IsExistError(sub.error.value)
    ensures Valid(sub.fs) ==> Valid(r.fs)
  {
    if sub.error.Some? && !IsExistError(sub.error.value) then sub
    else if tail == "." then Change(sub.fs, None)
    else MkdirExistOk(sub.fs, name)
  }

  /**
   * The shape every reachable host state has: files and directories are
   * disjoint, the empty path names nothing, the root is not a file, and every
   * entry sits in an existing directory.
   */
  predicate Valid(fs: FileSys) {
    && fs.files.Keys !! fs.dirs
    && [] !in fs.files && [] !in fs.dirs
    && (forall p :: p in fs.files ==> !IsRoot(p) && !Slashed(p) && ParentIsDir(fs, p))
    && (forall d :: d in fs.dirs ==> !Slashed(d) && ParentIsDir(fs, d))
  }

  /** On a well-formed host, `makedirs` of a plain path that fails has changed nothing. */
  lemma {:induction false} MakeDirsAtomic(fs: FileSys, name: Path)
    requires Valid(fs) && Plain(name)
    ensures MakeDirs(fs, name).error.Some? ==> MakeDirs(fs, name).fs == fs
    decreases |name|
  {
    PlainJoin(name);
    PlainResolved(name);
    var (head, tail) := TrySplit(name);
    if head != [] && tail != [] && !Exists(fs, head) {
      assert Plain(head) by {
        assert head == Dirname(name) && head != "/";
      }
      assert TrySplit(head).1 != "." by {
        PlainJoin(head);
      }
      MakeDirsAtomic(fs, head);
      ParentCreatedAllowsMkdir(fs, name, head);
    }
  }

  /** Once `makedirs` has created the missing parent of a path, the final `mkdir` succeeds. */
  lemma ParentCreatedAllowsMkdir(fs: FileSys, name: Path, head: Path)
    requires Valid(fs) && !Slashed(name) && head == Dirname(name) && head != [] && !Exists(fs, head)
    requires |head| < |name| && TrySplit(head).1 != "."
    ensures MakeDirs(fs, head).error.None? ==> MkdirExistOk(MakeDirs(fs, head).fs, name).error.None?
  {
    var sub := MakeDirs(fs, head);
    if sub.error.None? {
      assert IsDir(sub.fs, head);
      AbsentUnderMissingParent(fs, name);
      assert name !in sub.fs.dirs;
      assert Mkdir(sub.fs, name).Ok?;
    }
  }

  /** Creating or replacing a regular file where `open(p, "wb")` may keep a well-formed host well-formed. */
  lemma PutFileKeepsValid(fs: FileSys, p: Path, data: FileData)
    requires Valid(fs) && p != [] && !Slashed(p) && ParentIsDir(fs, p) && !IsDir(fs, p)
    ensures Valid(fs.(files := fs.files[p := data]))
  {
  }

  /** Removing a regular file keeps a well-formed host well-formed. */
  lemma RemoveFileKeepsValid(fs: FileSys, p: Path)
    requires p in fs.files
    ensures Valid(fs) ==> Valid(fs.(files := fs.files - {p}))
  {
    var fs' := fs.(files := fs.files - {p});
    if Valid(fs) {
      forall q | q in fs'.files ensures !IsRoot(q) && !Slashed(q) && ParentIsDir(fs', q) {
        assert q in fs.files;
      }
    }
  }

  /** On a well-formed host nothing lives under a parent that is not a directory. */
  lemma AbsentUnderMissingParent(fs: FileSys, p: Path)
    requires Valid(fs) && !ParentIsDir(fs, p)
    ensures p !in fs.files && p !in fs.dirs
  {
  }

  /** On a well-formed host, `makedirs` of a plain path that is already a directory is a no-op. */
  lemma MakeDirsNoop(fs: FileSys, name: Path)
    requires Valid(fs) && Plain(name) && IsDir(fs, name)
    ensures MakeDirs(fs, name) == Change(fs, None)
  {
    DirParentExists(fs, name);
    MakeDirsWithParent(fs, name);
  }

  /** On a well-formed host the parent of a plain directory exists (or is the working directory). */
  lemma DirParentExists(fs: FileSys, name: Path)
    requires Valid(fs) && Plain(name) && IsDir(fs, name)
    ensures name in fs.dirs && (Dirname(name) == [] || Exists(fs, Dirname(name)))
  {
    PlainJoin(name);
    PlainResolved(name);
    assert name in fs.dirs;
    assert ParentIsDir(fs, name);
    assert Dirname(name) == Parent(name);
  }

  /** With its parent in place (or none needed), `makedirs` of a plain path is the final `mkdir` alone. */
  lemma MakeDirsWithParent(fs: FileSys, name: Path)
    requires Plain(name) && (Dirname(name) == [] || Exists(fs, Dirname(name)))
    ensures MakeDirs(fs, name) == MkdirExistOk(fs, name)
  {
    assert TrySplit(name) == Split(name);
  }

  /** `posixpath.dirname` never ends in a slash unless it is the root. */
  lemma DirnameUnslashed(p: Path)
    ensures !Slashed(Dirname(p))
  {
  }

  /**
   * Neither `p` nor any of its ancestors is a regular file: the condition
   * under which `makedirs` can create every missing directory on the way.
   */
  predicate NoFileOnPath(fs: FileSys, p: Path)
    decreases |p|
  {
    var h := Dirname(p);
    p !in fs.files && (h == [] || IsRoot(h) || NoFileOnPath(fs, h))
  }

  /** On a well-formed host, no ancestor of a directory is a regular file. */
  lemma {:induction false} DirHasNoFileOnPath(fs: FileSys, p: Path)
    requires Valid(fs) && p in fs.dirs
    ensures NoFileOnPath(fs, p)
    decreases |p|
  {
    var h := Dirname(p);
    assert Parent(p) == h;
    if h != [] && !IsRoot(h) {
      DirnameUnslashed(p);
      assert h in fs.dirs;
      DirHasNoFileOnPath(fs, h);
    }
  }

  /**
   * On a well-formed host, `makedirs` of a plain path succeeds exactly when
   * no regular file is in the way, and it reports `FileExistsError` only when
   * the path itself is a regular file.
   */
  lemma {:induction false} MakeDirsSucceeds(fs: FileSys, name: Path)
    requires Valid(fs) && Plain(name)
    ensures MakeDirs(fs, name).error.None? <==> NoFileOnPath(fs, name)
    ensures MakeDirs(fs, name).error.Some? && IsExistError(MakeDirs(fs, name).error.value) ==> name in fs.files
    decreases |name|
  {
    PlainJoin(name);
    var head := Dirname(name);
    if head != [] && !Exists(fs, head) {
      assert head != "/";
      MakeDirsSucceeds(fs, head);
      MakeDirsAfterParent(fs, name);
    } else {
      MkdirUnderExistingParent(fs, name);
    }
  }

  /** The last step of `makedirs`, once the parent exists: only a regular file in the way makes it fail. */
  lemma MkdirUnderExistingParent(fs: FileSys, name: Path)
    requires Valid(fs) && Plain(name)
    requires Dirname(name) == [] || Exists(fs, Dirname(name))
    ensures MakeDirs(fs, name) == MkdirExistOk(fs, name)
    ensures MkdirExistOk(fs, name).error.None? <==> NoFileOnPath(fs, name)
    ensures MkdirExistOk(fs, name).error.Some? && IsExistError(MkdirExistOk(fs, name).error.value) ==> name in fs.files
  {
    PlainJoin(name);
    PlainResolved(name);
    var head := Dirname(name);
    MakeDirsWithParent(fs, name);
    assert head == Parent(name);
    if head == [] || IsRoot(head) {
      assert ParentIsDir(fs, name);
    } else if head in fs.files {
      AbsentUnderMissingParent(fs, name);
    } else {
      assert head in fs.dirs;
      DirHasNoFileOnPath(fs, head);
    }
  }

  /** The recursive step of `makedirs`: with a missing parent, the outcome is the parent's. */
  lemma MakeDirsAfterParent(fs: FileSys, name: Path)
    requires Valid(fs) && Plain(name)
    requires Dirname(name) != [] && !Exists(fs, Dirname(name)) && Plain(Dirname(name))
    requires MakeDirs(fs, Dirname(name)).error.None? <==> NoFileOnPath(fs, Dirname(name))
    requires MakeDirs(fs, Dirname(name)).error.Some? && IsExistError(MakeDirs(fs, Dirname(name)).error.value) ==> Dirname(name) in fs.files
    ensures MakeDirs(fs, name).error.None? <==> NoFileOnPath(fs, name)
    ensures MakeDirs(fs, name).error.Some? ==> !IsExistError(MakeDirs(fs, name).error.value)
  {
    PlainJoin(name);
    PlainResolved(name);
    var head := Dirname(name);
    PlainJoin(head);
    assert TrySplit(name) == Split(name);
    assert head == Parent(name);
    AbsentUnderMissingParent(fs, name);
    ParentCreatedAllowsMkdir(fs, name, head);
    assert NoFileOnPath(fs, name) == NoFileOnPath(fs, head);
  }

  /** `makedirs` of a plain path is idempotent: a second call after a success changes nothing. */
  lemma MakeDirsIdempotent(fs: FileSys, name: Path)
    requires Valid(fs) && Plain(name) && MakeDirs(fs, name).error.None?
    ensures MakeDirs(MakeDirs(fs, name).fs, name) == Change(MakeDirs(fs, name).fs, None)
  {
    PlainJoin(name);
    MakeDirsNoop(MakeDirs(fs, name).fs, name);
  }

  /** shutil's same-file test: both names stat to one existing object. */
  predicate SameFile(fs: FileSys, a: Path, b: Path) {
    a == b && Exists(fs, a)
  }

  /** Where `shutil.copy2` writes: inside `dst` when it is a directory. */
  function CopyTarget(fs: FileSys, src: Path, dst: Path): Path {
    if IsDir(fs, dst) then Join(dst, Basename(src)) else dst
  }

  /**
   * The target `copyfile` cannot open because it names a directory that does
   * not exist: a slashed name in an existing parent that is not a directory
   * (the kernel's `EISDIR` for `O_CREAT` on such a name), which
   * `os.path.exists` then reports as absent.
   */
  predicate MissingDirTarget(fs: FileSys, t: Path) {
    Slashed(t) && !Exists(fs, t) && ParentIsDir(fs, t)
  }

  /**
   * `shutil.copy2(src, dst)`: into `dst/basename(src)` when `dst` is a
   * directory; refuses a copy onto itself; the destination ends up with the
   * source's bytes and, through `copystat`, its timestamps. When opening the
   * target gives `IsADirectoryError` and the target does not exist,
   * `copyfile` raises `FileNotFoundError("Directory does not exist: ...")`.
   */
  function Copy2(fs: FileSys, src: Path, dst: Path): (r: Result<FileSys, FsError>)
    ensures r.Ok? <==> src in fs.files && !SameFile(fs, src, CopyTarget(fs, src, dst)) && Writable(fs, CopyTarget(fs, src, dst))
    ensures r.Err? && r.error.DirectoryMissing? <==> src in fs.files && !SameFile(fs, src, CopyTarget(fs, src, dst)) && MissingDirTarget(fs, CopyTarget(fs, src, dst))
    ensures r.Err? && r.error.DirectoryMissing? ==> r.error.dst == CopyTarget(fs, src, dst)
    ensures r.Ok? ==> r.value.files.Keys == fs.files.Keys + {CopyTarget(fs, src, dst)}
    ensures r.Ok? ==> r.value.files[CopyTarget(fs, src, dst)] == fs.files[src]
    ensures r.Ok? ==> forall q :: q in fs.files && q != CopyTarget(fs, src, dst) ==> r.value.files[q] == fs.files[q]
    ensures r.Ok? ==> r.value.dirs == fs.dirs && r.value.listing == fs.listing
    ensures r.Ok? && Valid(fs) ==> Valid(r.value)
  {
    var target := CopyTarget(fs, src, dst);
    if SameFile(fs, src, target) then Err(SameFileError(src, target))
    else match ReadFile(fs, src)
      case Err(e) => Err(e)
      case Ok(_) =>
        match OpenWriteError(fs, target)
        case Some(e) =>
          if e.errno == EISDIR && !Exists(fs, target) then Err(DirectoryMissing(target)) else Err(e)
        case None =>
          var fs' := fs.(files := fs.files[target := fs.files[src]]);
          assert Valid(fs) ==> Valid(fs') by {
            if Valid(fs) {
              assert target != [] && ParentIsDir(fs, target);
              PutFileKeepsValid(fs, target, fs.files[src]);
            }
          }
          Ok(fs')
  }

  /**
   * Copying a file to `x/` in an existing directory, where `x` is absent or
   * a regular file, raises `FileNotFoundError` "Directory does not exist: x/",
   * not the kernel's `IsADirectoryError`.
   */
  lemma CopyToMissingDirectory(fs: FileSys, src: Path, dst: Path)
    requires Valid(fs) && src in fs.files && Slashed(dst) && ParentIsDir(fs, dst) && !IsDir(fs, dst)
    ensures Copy2(fs, src, dst) == Err(DirectoryMissing(dst))
    ensures Copy2(fs, src, dst).error.Message() == "Directory does not exist: " + dst
  {
    assert dst in fs.files ==> !Slashed(dst);
    assert src != dst by {
      assert !Slashed(src);
    }
    assert OpenWriteError(fs, dst) == Some(OsError(EISDIR, dst));
  }

  /**
   * `f/` where `f` is a regular file: `open("f/", "wb")` gives `EISDIR`, and
   * `copy2(src, "f/")` reports "Directory does not exist: f/".
   */
  lemma SlashedFileAsTarget(fs: FileSys, src: Path, f: Path, content: Bytes, now: Time)
    requires Valid(fs) && src in fs.files && f in fs.files && f + "/" != f
    requires Slashed(f + "/") && Resolve(f + "/") == f
    ensures WriteFile(fs, f + "/", content, now) == Err(OsError(EISDIR, f + "/"))
    ensures Copy2(fs, src, f + "/") == Err(DirectoryMissing(f + "/"))
  {
    assert ParentIsDir(fs, f);
    assert Parent(f + "/") == Parent(f);
    assert !IsDir(fs, f + "/") by { assert f !in fs.dirs; }
    CopyToMissingDirectory(fs, src, f + "/");
  }
}

=== FILE: legacy_file_manager.dfy ===
/**
 * The older `FileManagerFacade` of `core/file_manager.py`, which calls the
 * host directly. Save, load, delete and copy each run inside a tracker scope
 * of their own; directory creation, listing and sanitising do not. Every
 * failure logs one error entry and re-raises the host's exception as it is.
 */
module LegacyFileManager {
  import opened Results
  import opened PosixPath
  import opened HostFs
  import opened Exceptions
  import opened Logging
  import opened Runtime
  import opened PyText
  import opened FileUtils
  import opened Tracker

  /** What a host call returned, paired with the filesystem it left. */
  type HostResult<T> = Result<(T, FileSys), FsError>

  /** A host call that only changes the filesystem. */
  function Changed(r: Result<FileSys, FsError>): (h: HostResult<()>)
    ensures h.Ok? <==> r.Ok?
    ensures h.Ok? ==> h.value.1 == r.value
    ensures h.Err? ==> h.error == r.error
  {
    match r
    case Ok(fs) => Ok(((), fs))
    case Err(e) => Err(e)
  }

  /** A host call that only reads. */
  function Unchanged<T>(fs: FileSys, r: Result<T, FsError>): (h: HostResult<T>)
    ensures h.Ok? <==> r.Ok?
    ensures h.Ok? ==> h.value == (r.value, fs)
    ensures h.Err? ==> h.error == r.error
  {
    match r
    case Ok(v) => Ok((v, fs))
    case Err(e) => Err(e)
  }

  /**
   * The `try` block of every legacy operation: on success install the new
   * filesystem and log `success`; on failure log `failure: str(e)` as an
   * error and re-raise `e` unchanged.
   */
  function Attempt<T>(w: World, host: HostResult<T>, success: string, failure: string): Step<T> {
    match host
    case Ok((v, fs)) => Step(Ok(v), Emit(w.(fs := fs), InfoMsg(success)))
    case Err(e) => Step(Err(HostError(e)), Emit(w, ErrorMsg(failure + ": " + e.Message())))
  }

  /** The one entry an attempt logs. */
  function Outcome<T>(host: HostResult<T>, success: string, failure: string): LogEntry {
    if host.Ok? then InfoMsg(success) else ErrorMsg(failure + ": " + host.error.Message())
  }

  /**
   * A tracked legacy call: the host's value or exception comes back unchanged,
   * a failure leaves the files as they were, the scope's time is recorded
   * under `scope`, and between the scope's two entries exactly one entry is
   * logged, an error entry exactly when the host failed.
   */
  predicate TrackedAttempt<T(==)>(w: World, scope: string, elapsed: Duration, host: HostResult<T>, success: string, failure: string, r: Step<T>) {
    && (host.Ok? ==> r.outcome == Ok(host.value.0) && r.world.fs == host.value.1)
    && (host.Err? ==> r.outcome == Err(HostError(host.error)) && r.world.fs == w.fs)
    && r.world.now == w.now
    && r.world.metrics == Record(w.metrics, scope, elapsed)
    && r.world.log == w.log + [StartedEntry(scope), Outcome(host, success, failure), CompletedEntry(scope, elapsed)]
  }

  /** `with tracker.track_execution(scope): try ...`. */
  function Tracked<T(==)>(w: World, scope: string, elapsed: Duration, host: HostResult<T>, success: string, failure: string): (r: Step<T>)
    ensures TrackedAttempt(w, scope, elapsed, host, success, failure, r)
  {
    TrackExecution(w, scope, elapsed, (w1: World) => Attempt(w1, host, success, failure))
  }

  /** `save_file`: `open(p, "wb").write(content)` in the "Save File" scope. */
  function SaveFile(w: World, content: Bytes, p: Path, elapsed: Duration): (r: Step<()>)
    ensures TrackedAttempt(w, "Save File", elapsed, Changed(WriteFile(w.fs, p, content, w.now)),
      "File saved successfully: " + p, "Failed to save file " + p, r)
    ensures r.outcome.Ok? <==> Writable(w.fs, p)
    ensures IsDir(w.fs, p) || (Slashed(p) && ParentIsDir(w.fs, p)) ==> r.outcome == Err(HostError(OsError(EISDIR, p)))
    ensures Valid(w.fs) ==> Valid(r.world.fs)
  {
    Tracked(w, "Save File", elapsed, Changed(WriteFile(w.fs, p, content, w.now)),
      "File saved successfully: " + p, "Failed to save file " + p)
  }

  /** `load_file`: `open(p, "rb").read()` in the "Load File" scope. */
  function LoadFile(w: World, p: Path, elapsed: Duration): (r: Step<Bytes>)
    ensures TrackedAttempt(w, "Load File", elapsed, Unchanged(w.fs, ReadFile(w.fs, p)),
      "File loaded successfully: " + p, "Failed to load file " + p, r)
    ensures r.outcome.Ok? <==> p in w.fs.files
  {
    Tracked(w, "Load File", elapsed, Unchanged(w.fs, ReadFile(w.fs, p)),
      "File loaded successfully: " + p, "Failed to load file " + p)
  }

  /** `delete_file`: `os.remove` in the "Delete File" scope; unlike the utility, a missing file is an error. */
  function DeleteFile(w: World, p: Path, elapsed: Duration): (r: Step<()>)
    ensures TrackedAttempt(w, "Delete File", elapsed, Changed(Remove(w.fs, p)),
      "File deleted successfully: " + p, "Failed to delete file " + p, r)
    ensures r.outcome.Ok? <==> p in w.fs.files
    ensures Valid(w.fs) ==> Valid(r.world.fs)
  {
    Tracked(w, "Delete File", elapsed, Changed(Remove(w.fs, p)),
      "File deleted successfully: " + p, "Failed to delete file " + p)
  }

  /** `copy_file`: `shutil.copy2` in the "Copy File" scope. */
  function CopyFile(w: World, src: Path, dst: Path, elapsed: Duration): (r: Step<()>)
    ensures TrackedAttempt(w, "Copy File", elapsed, Changed(Copy2(w.fs, src, dst)),
      "File copied from " + src + " to " + dst, "Failed to copy file from " + src + " to " + dst, r)
    ensures r.outcome.Ok? <==> src in w.fs.files && !SameFile(w.fs, src, CopyTarget(w.fs, src, dst)) && Writable(w.fs, CopyTarget(w.fs, src, dst))
    ensures src in w.fs.files && !SameFile(w.fs, src, CopyTarget(w.fs, src, dst)) && MissingDirTarget(w.fs, CopyTarget(w.fs, src, dst))
      ==> r.outcome == Err(HostError(DirectoryMissing(CopyTarget(w.fs, src, dst))))
    ensures Valid(w.fs) ==> Valid(r.world.fs)
  {
    Tracked(w, "Copy File", elapsed, Changed(Copy2(w.fs, src, dst)),
      "File copied from " + src + " to " + dst, "Failed to copy file from " + src + " to " + dst)
  }

  /**
   * `ensure_directory_exists`: `os.makedirs(d, exist_ok=True)` with no scope.
   * A failure keeps whatever `makedirs` created before it failed, logs one
   * error entry and re-raises the host's exception.
   */
  function EnsureDirectoryExists(w: World, d: Path): (r: Step<()>)
    ensures r.world.fs == MakeDirs(w.fs, d).fs && r.world.metrics == w.metrics && r.world.now == w.now
    ensures r.outcome.Ok? <==> MakeDirs(w.fs, d).error.None?
    ensures r.outcome.Err? ==> r.outcome.error == HostError(MakeDirs(w.fs, d).error.value)
    ensures r.outcome.Ok? ==> r.world.log == w.log + [InfoMsg("Directory ensured: " + d)]
    ensures r.outcome.Err? ==> r.world.log == w.log + [ErrorMsg("Failed to ensure directory " + d + ": " + MakeDirs(w.fs, d).error.value.Message())]
  {
    var c := MakeDirs(w.fs, d);
    var w1 := w.(fs := c.fs);
    match c.error
    case None => Step(Ok(()), Emit(w1, InfoMsg("Directory ensured: " + d)))
    case Some(e) => Step(Err(HostError(e)), Emit(w1, ErrorMsg("Failed to ensure directory " + d + ": " + e.Message())))
  }

  /**
   * `list_files`, with no scope: the same filter as the utility over the host
   * listing, the count logged; a failed `os.listdir` is logged and re-raised
   * as the host raised it.
   */
  function ListFiles(w: World, d: Path, extensions: Option<seq<string>>): (r: Step<seq<Path>>)
    ensures r.world.fs == w.fs && r.world.metrics == w.metrics && r.world.now == w.now
    ensures r.outcome.Ok? <==> ListDir(w.fs, d).Ok?
    ensures r.outcome.Ok? ==> r.outcome.value == FilterListing(w.fs, d, extensions, ListDir(w.fs, d).value)
    ensures r.outcome.Ok? ==> r.world.log == w.log + [InfoMsg("Listed " + NatStr(|r.outcome.value|) + " files in directory: " + d)]
    ensures r.outcome.Err? ==> r.outcome.error == HostError(ListDir(w.fs, d).error)
    ensures r.outcome.Err? ==> r.world.log == w.log + [ErrorMsg("Failed to list files in directory " + d + ": " + ListDir(w.fs, d).error.Message())]
  {
    match ListDir(w.fs, d)
    case Ok(names) =>
      var files := FilterListing(w.fs, d, extensions, names);
      Step(Ok(files), Emit(w, InfoMsg("Listed " + NatStr(|files|) + " files in directory: " + d)))
    case Err(e) =>
      Step(Err(HostError(e)), Emit(w, ErrorMsg("Failed to list files in directory " + d + ": " + e.Message())))
  }

  /** `sanitize_filename`: the same one-for-one map as the utility, with no scope. */
  function SanitizeFilename(w: World, name: string): (r: Step<string>)
    ensures r.outcome == Ok(SanitizeFilenameSafe(name))
    ensures r.world == Emit(w, InfoMsg("Sanitized filename: " + SanitizeFilenameSafe(name)))
  {
    var s := SanitizeFilenameSafe(name);
    Step(Ok(s), Emit(w, InfoMsg("Sanitized filename: " + s)))
  }

  /** What was saved is what is loaded back. */
  lemma SaveLoadRoundTrip(w: World, content: Bytes, p: Path, e1: Duration, e2: Duration)
    requires SaveFile(w, content, p, e1).outcome.Ok?
    ensures LoadFile(SaveFile(w, content, p, e1).world, p, e2).outcome == Ok(content)
  {
    var w1 := SaveFile(w, content, p, e1).world;
    assert w1.fs == WriteFile(w.fs, p, content, w.now).value;
    assert p in w1.fs.files && w1.fs.files[p].content == content;
  }

  /**
   * Deleting a missing file fails with the host's error, logs it, and changes
   * nothing, where the utility's delete quietly succeeds on a "not found".
   */
  lemma DeleteMissingRaises(w: World, p: Path, elapsed: Duration)
    requires !Exists(w.fs, p)
    ensures DeleteFile(w, p, elapsed).outcome == Err(HostError(MissingError(w.fs, p)))
    ensures DeleteFile(w, p, elapsed).world.fs == w.fs
    ensures DeleteFile(w, p, elapsed).world.log[|w.log| + 1] == ErrorMsg("Failed to delete file " + p + ": " + MissingError(w.fs, p).Message())
    ensures MissingError(w.fs, p).errno == ENOENT ==> DeleteFileSafe(w.fs, p) == Effect(w.fs, None)
  {
    var host := Changed(Remove(w.fs, p));
    assert Remove(w.fs, p) == Err(MissingError(w.fs, p));
    assert host == Err(MissingError(w.fs, p));
    var r := DeleteFile(w, p, elapsed);
    assert r.world.log == w.log + [StartedEntry("Delete File"), Outcome(host, "File deleted successfully: " + p, "Failed to delete file " + p), CompletedEntry("Delete File", elapsed)];
  }

  /** Listing returns what the utility's listing returns, and both fail on the same paths. */
  lemma ListFilesAgreesWithUtility(w: World, d: Path, extensions: Option<seq<string>>)
    ensures ListFiles(w, d, extensions).outcome.Ok? <==> ListFilesInDirectory(w.fs, d, extensions).Ok?
    ensures ListFiles(w, d, extensions).outcome.Ok? ==>
      ListFiles(w, d, extensions).outcome.value == ListFilesInDirectory(w.fs, d, extensions).value
  {
  }

  /** The listed example: `(".txt",)` over `file1.txt`, `file2.txt`, `file3.log` keeps the first two, in order. */
  lemma ListFilesExample(w: World, data: FileData)
    requires w.fs == FileSys(map["d/file1.txt" := data, "d/file2.txt" := data, "d/file3.log" := data], {"d"},
      map["d" := ["file1.txt", "file2.txt", "file3.log"]])
    ensures ListFiles(w, "d", Some([".txt"])).outcome == Ok(["d/file1.txt", "d/file2.txt"])
  {
    var names := ["file1.txt", "file2.txt", "file3.log"];
    assert ListDir(w.fs, "d") == Ok(names);
    assert "d/file1.txt" in w.fs.files && "d/file2.txt" in w.fs.files;
    FilterExample(w.fs);
  }

  lemma FilterExample(fs: FileSys)
    requires "d/file1.txt" in fs.files && "d/file2.txt" in fs.files
    ensures FilterListing(fs, "d", Some([".txt"]), ["file1.txt", "file2.txt", "file3.log"]) == ["d/file1.txt", "d/file2.txt"]
  {
    var ext := Some([".txt"]);
    KeepsExample(fs);
    assert FilterListing(fs, "d", ext, []) == [];
    assert FilterListing(fs, "d", ext, ["file3.log"]) == [] by {
      assert ["file3.log"][1..] == [];
    }
    assert FilterListing(fs, "d", ext, ["file2.txt", "file3.log"]) == ["d/file2.txt"] by {
      assert ["file2.txt", "file3.log"][1..] == ["file3.log"];
    }
    assert ["file1.txt", "file2.txt", "file3.log"][1..] == ["file2.txt", "file3.log"];
  }

  lemma KeepsExample(fs: FileSys)
    requires "d/file1.txt" in fs.files && "d/file2.txt" in fs.files
    ensures Keeps(fs, "d", Some([".txt"]), "file1.txt") && Join("d", "file1.txt") == "d/file1.txt"
    ensures Keeps(fs, "d", Some([".txt"]), "file2.txt") && Join("d", "file2.txt") == "d/file2.txt"
    ensures !Keeps(fs, "d", Some([".txt"]), "file3.log")
  {
    assert Join("d", "file1.txt") == "d/file1.txt";
    assert Join("d", "file2.txt") == "d/file2.txt";
    KeptWithSuffix(fs, "d", "file1.txt", ".txt");
    KeptWithSuffix(fs, "d", "file2.txt", ".txt");
    assert !EndsWith("file3.log", ".txt");
  }

  /** A listed regular file whose name ends with the one suffix of the filter is kept. */
  lemma KeptWithSuffix(fs: FileSys, d: Path, name: string, suffix: string)
    requires Join(d, name) in fs.files && EndsWith(name, suffix)
    ensures Keeps(fs, d, Some([suffix]), name)
  {
    assert [suffix][0] == suffix;
  }
}

=== FILE: local_facade.dfy ===
/**
 * The facade wired to the local backend, as the application assembles it:
 * through the decorator each file operation has exactly the local utility's
 * effect and answer, and the cloud operations fail.
 */
module LocalFacade {
  import opened Results
  import opened PosixPath
  import opened HostFs
  import opened Exceptions
  import opened Runtime
  import opened Tracker
  import opened FileUtils
  import opened LocalFileManager
  import Facade = FileManagerFacade

  /** Saving through the facade writes exactly what `safe_write` writes, raises what it raises, and records "Save File". */
  lemma SaveMatchesUtility(w: World, content: Bytes, p: Path, elapsed: Duration)
    ensures var r := Facade.SaveFile(Local(), w, content, p, elapsed);
      && r.world.fs == SafeWrite(w.fs, content, p, w.now).fs
      && (r.outcome.Ok? <==> SafeWrite(w.fs, content, p, w.now).error.None?)
      && (r.outcome.Err? ==> r.outcome.error == SafeWrite(w.fs, content, p, w.now).error.value)
      && GetMetric(r.world.metrics, "Save File") == Some(elapsed)
  {
    var inner := Local().saveFile(Emit(w, StartedEntry("Save File")), content, p);
    assert inner == LocalFileManager.SaveFile(Emit(w, StartedEntry("Save File")), content, p);
    assert SameEffect(w, SafeWrite(w.fs, content, p, w.now), inner);
  }

  /** The existence check through the facade is `os.path.isfile`. */
  lemma ExistsMatchesUtility(w: World, p: Path, elapsed: Duration)
    ensures Facade.FileExists(Local(), w, p, elapsed).outcome == Ok(IsFile(w.fs, p))
    ensures Facade.FileExists(Local(), w, p, elapsed).world.fs == w.fs
  {
    var inner := Local().fileExists(Emit(w, StartedEntry("Check File Exists")), p);
    assert inner == LocalFileManager.FileExists(Emit(w, StartedEntry("Check File Exists")), p);
  }

  /** The metadata through the facade is the utility's. */
  lemma MetadataMatchesUtility(w: World, p: Path, elapsed: Duration)
    ensures Facade.GetFileMetadata(Local(), w, p, elapsed).outcome == FileUtils.GetFileMetadata(w.fs, p)
    ensures Facade.GetFileMetadata(Local(), w, p, elapsed).world.fs == w.fs
  {
    var inner := Local().getFileMetadata(Emit(w, StartedEntry("Get File Metadata")), p);
    assert inner == LocalFileManager.GetFileMetadata(Emit(w, StartedEntry("Get File Metadata")), p);
  }

  /** Deleting through the facade is `delete_file_safe`: a missing file is not an error. */
  lemma DeleteMatchesUtility(w: World, p: Path, elapsed: Duration)
    ensures var r := Facade.DeleteFile(Local(), w, p, elapsed);
      && r.world.fs == DeleteFileSafe(w.fs, p).fs
      && (r.outcome.Ok? <==> DeleteFileSafe(w.fs, p).error.None?)
  {
    var inner := Local().deleteFile(Emit(w, StartedEntry("Delete File")), p);
    assert inner == LocalFileManager.DeleteFile(Emit(w, StartedEntry("Delete File")), p);
    assert SameEffect(w, DeleteFileSafe(w.fs, p), inner);
  }

  /** Copying through the facade is `copy_file_safe`. */
  lemma CopyMatchesUtility(w: World, src: Path, dst: Path, elapsed: Duration)
    ensures var r := Facade.CopyFile(Local(), w, src, dst, elapsed);
      && r.world.fs == CopyFileSafe(w.fs, src, dst).fs
      && (r.outcome.Ok? <==> CopyFileSafe(w.fs, src, dst).error.None?)
  {
    var inner := Local().copyFile(Emit(w, StartedEntry("Copy File")), src, dst);
    assert inner == LocalFileManager.CopyFile(Emit(w, StartedEntry("Copy File")), src, dst);
    assert SameEffect(w, CopyFileSafe(w.fs, src, dst), inner);
  }

  /** Ensuring a directory through the facade is the utility's `makedirs`. */
  lemma EnsureMatchesUtility(w: World, d: Path, elapsed: Duration)
    ensures var r := Facade.EnsureDirectoryExists(Local(), w, d, elapsed);
      && r.world.fs == FileUtils.EnsureDirectoryExists(w.fs, d).fs
      && (r.outcome.Ok? <==> FileUtils.EnsureDirectoryExists(w.fs, d).error.None?)
  {
    var inner := Local().ensureDirectoryExists(Emit(w, StartedEntry("Ensure Directory Exists")), d);
    assert inner == LocalFileManager.EnsureDirectoryExists(Emit(w, StartedEntry("Ensure Directory Exists")), d);
    assert SameEffect(w, FileUtils.EnsureDirectoryExists(w.fs, d), inner);
  }

  /** Listing through the facade is the utility's listing. */
  lemma ListMatchesUtility(w: World, d: Path, extensions: Option<seq<string>>, elapsed: Duration)
    ensures Facade.ListFiles(Local(), w, d, extensions, elapsed).outcome == ListFilesInDirectory(w.fs, d, extensions)
    ensures Facade.ListFiles(Local(), w, d, extensions, elapsed).world.fs == w.fs
  {
    var inner := Local().listFiles(Emit(w, StartedEntry("List Files")), d, extensions);
    assert inner == LocalFileManager.ListFiles(Emit(w, StartedEntry("List Files")), d, extensions);
  }

  /** Sanitising through the facade is the utility's map, and records no metric. */
  lemma SanitizeMatchesUtility(w: World, name: string)
    ensures Facade.SanitizeFilename(Local(), w, name).outcome == Ok(SanitizeFilenameSafe(name))
    ensures Facade.SanitizeFilename(Local(), w, name).world.metrics == w.metrics
  {
    assert Local().sanitizeFilename(w, name) == LocalFileManager.SanitizeFilename(w, name);
  }

  /** A cloud upload through the facade raises `NotImplementedError`, logs no success entry, and still records its scope. */
  lemma UploadFailsThroughFacade(w: World, localPath: Path, cloudPath: Path, elapsed: Duration)
    ensures var r := Facade.UploadFile(Local(), w, localPath, cloudPath, elapsed);
      && r.outcome == Err(NotImplementedError("Cloud upload is not implemented."))
      && r.world.fs == w.fs
      && |w.log| <= |r.world.log|
      && Facade.UploadEntry(localPath, cloudPath) !in r.world.log[|w.log|..]
      && GetMetric(r.world.metrics, "Upload File") == Some(elapsed)
  {
    var r := Facade.UploadFile(Local(), w, localPath, cloudPath, elapsed);
    var inner := Local().uploadFile(Emit(w, StartedEntry("Upload File")), localPath, cloudPath);
    assert inner == LocalFileManager.UploadFile(Emit(w, StartedEntry("Upload File")), localPath, cloudPath);
    var tail := [StartedEntry("Upload File"), Logging.InfoMsg("Attempting to upload file from " + localPath + " to " + cloudPath), CompletedEntry("Upload File", elapsed)];
    assert r.world.log == w.log + tail;
    assert r.world.log[|w.log|..] == tail;
  }

  /**
   * The round trip the facade is used for: after a save into an existing
   * directory the file exists with the saved size; after deleting it, it
   * does not.
   */
  lemma SaveInspectDelete(w: World, content: Bytes, p: Path, e: Duration)
    requires p != [] && !Slashed(p) && ParentIsDir(w.fs, p) && !IsDir(w.fs, p)
    ensures var saved := Facade.SaveFile(Local(), w, content, p, e);
      && saved.outcome.Ok?
      && Facade.FileExists(Local(), saved.world, p, e).outcome == Ok(true)
      && Facade.GetFileMetadata(Local(), saved.world, p, e).outcome.Ok?
      && Facade.GetFileMetadata(Local(), saved.world, p, e).outcome.value.size == |content|
      && var deleted := Facade.DeleteFile(Local(), saved.world, p, e);
      && deleted.outcome.Ok?
      && Facade.FileExists(Local(), deleted.world, p, e).outcome == Ok(false)
  {
    SaveMatchesUtility(w, content, p, e);
    var saved := Facade.SaveFile(Local(), w, content, p, e);
    assert p in saved.world.fs.files && saved.world.fs.files[p].content == content;
    ExistsMatchesUtility(saved.world, p, e);
    MetadataMatchesUtility(saved.world, p, e);
    DeleteMatchesUtility(saved.world, p, e);
    var deleted := Facade.DeleteFile(Local(), saved.world, p, e);
    ExistsMatchesUtility(deleted.world, p, e);
  }
}

=== FILE: local_file_manager.dfy ===
/**
 * `LocalFileManager`: every file operation is the local utility's, framed by
 * info entries; the cloud operations log the attempt and raise
 * `NotImplementedError`.
 */
module LocalFileManager {
  import opened Results
  import opened PosixPath
  import opened HostFs
  import opened Exceptions
  import opened Logging
  import opened Runtime
  import opened PyText
  import opened FileUtils
  import opened BaseFileManager

  /**
   * The call has exactly the utility's effect on the files and raises
   * exactly what the utility raised; the clock and the metrics are untouched.
   */
  predicate SameEffect(w: World, e: Effect, r: Step<()>) {
    && r.world.fs == e.fs
    && (r.outcome.Ok? <==> e.error.None?)
    && (r.outcome.Err? ==> r.outcome.error == e.error.value)
    && r.world.now == w.now
    && r.world.metrics == w.metrics
  }

  /** Log `before`, apply the utility's effect, and log `after` only if it raised nothing. */
  function Framed(w: World, before: string, e: Effect, after: string): (r: Step<()>)
    ensures SameEffect(w, e, r)
    ensures r.world.log == w.log + [InfoMsg(before)] + (if e.error.None? then [InfoMsg(after)] else [])
  {
    var w1 := Emit(w, InfoMsg(before)).(fs := e.fs);
    match e.error
    case Some(x) => Step(Err(x), w1)
    case None => Step(Ok(()), Emit(w1, InfoMsg(after)))
  }

  /** `save_file`: `safe_write`, between "Saving file" and "File saved successfully". */
  function SaveFile(w: World, content: Bytes, p: Path): (r: Step<()>)
    ensures SameEffect(w, SafeWrite(w.fs, content, p, w.now), r)
    ensures r.outcome.Ok? ==> r.world.log == w.log + [InfoMsg("Saving file: " + p), InfoMsg("File saved successfully: " + p)]
    ensures r.outcome.Err? ==> r.world.log == w.log + [InfoMsg("Saving file: " + p)]
  {
    Framed(w, "Saving file: " + p, SafeWrite(w.fs, content, p, w.now), "File saved successfully: " + p)
  }

  /** `file_exists`: the utility's answer, logged. */
  function FileExists(w: World, p: Path): (r: Step<bool>)
    ensures r.outcome == Ok(IsFile(w.fs, p))
    ensures r.world == Emit(w, InfoMsg("File exists check for " + p + ": " + BoolStr(IsFile(w.fs, p))))
  {
    var found := FileUtils.FileExists(w.fs, p);
    Step(Ok(found), Emit(w, InfoMsg("File exists check for " + p + ": " + BoolStr(found))))
  }

  /** `get_file_metadata`: the utility's dictionary, logged; the utility's error propagates with nothing logged. */
  function GetFileMetadata(w: World, p: Path): (r: Step<Metadata>)
    ensures r.outcome == FileUtils.GetFileMetadata(w.fs, p)
    ensures r.world.fs == w.fs && r.world.metrics == w.metrics
    ensures r.outcome.Ok? ==> r.world.log == w.log + [LogEntry(Info, "Metadata for " + p, [("metadata", Meta(r.outcome.value))])]
    ensures r.outcome.Err? ==> r.world == w
  {
    match FileUtils.GetFileMetadata(w.fs, p)
    case Ok(m) => Step(Ok(m), Emit(w, LogEntry(Info, "Metadata for " + p, [("metadata", Meta(m))])))
    case Err(e) => Step(Err(e), w)
  }

  /** `delete_file`: `delete_file_safe`, so a missing file succeeds. */
  function DeleteFile(w: World, p: Path): (r: Step<()>)
    ensures SameEffect(w, DeleteFileSafe(w.fs, p), r)
    ensures r.world.log == w.log + [InfoMsg("Deleting file: " + p)] + (if r.outcome.Ok? then [InfoMsg("File deleted successfully: " + p)] else [])
  {
    Framed(w, "Deleting file: " + p, DeleteFileSafe(w.fs, p), "File deleted successfully: " + p)
  }

  /** `copy_file`: `copy_file_safe`. */
  function CopyFile(w: World, src: Path, dst: Path): (r: Step<()>)
    ensures SameEffect(w, CopyFileSafe(w.fs, src, dst), r)
    ensures r.world.log == w.log + [InfoMsg("Copying file from " + src + " to " + dst)]
      + (if r.outcome.Ok? then [InfoMsg("File copied successfully: " + src + " -> " + dst)] else [])
  {
    Framed(w, "Copying file from " + src + " to " + dst, CopyFileSafe(w.fs, src, dst), "File copied successfully: " + src + " -> " + dst)
  }

  /** `ensure_directory_exists`: the utility's, including what a failed `makedirs` left behind. */
  function EnsureDirectoryExists(w: World, d: Path): (r: Step<()>)
    ensures SameEffect(w, FileUtils.EnsureDirectoryExists(w.fs, d), r)
    ensures r.world.log == w.log + [InfoMsg("Ensuring directory exists: " + d)] + (if r.outcome.Ok? then [InfoMsg("Directory ensured: " + d)] else [])
  {
    Framed(w, "Ensuring directory exists: " + d, FileUtils.EnsureDirectoryExists(w.fs, d), "Directory ensured: " + d)
  }

  /** The entry `list_files` logs: the filter, when there is one, travels as a field. */
  function ListingEntry(d: Path, extensions: Option<seq<string>>): LogEntry {
    if NoFilter(extensions) then InfoMsg("Listing all files in " + d)
    else LogEntry(Info, "Listing files in " + d + " with extensions", [("extensions", Strs(extensions.value))])
  }

  /** `list_files`: the branch on the filter picks the log text only; the result is the utility's. */
  function ListFiles(w: World, d: Path, extensions: Option<seq<string>>): (r: Step<seq<Path>>)
    ensures r.outcome == ListFilesInDirectory(w.fs, d, extensions)
    ensures r.world == Emit(w, ListingEntry(d, extensions))
  {
    Step(ListFilesInDirectory(w.fs, d, extensions), Emit(w, ListingEntry(d, extensions)))
  }

  /** Giving no filter, an empty filter or leaving it out lists the same files. */
  lemma ListFilesBranchLogOnly(w: World, d: Path, extensions: Option<seq<string>>)
    requires NoFilter(extensions)
    ensures ListFiles(w, d, extensions).outcome == ListFiles(w, d, None).outcome
    ensures ListFiles(w, d, extensions).world == ListFiles(w, d, None).world
  {
    if IsDir(w.fs, d) {
      NoFilterKeepsEveryFile(w.fs, d, extensions, ListDir(w.fs, d).value);
    }
  }

  /** `sanitize_filename`: the utility's mapping. */
  function SanitizeFilename(w: World, name: string): (r: Step<string>)
    ensures r.outcome.Ok? && r.outcome.value == SanitizeFilenameSafe(name)
    ensures r.world == Emit(w, InfoMsg("Sanitized filename: " + name + " -> " + SanitizeFilenameSafe(name)))
  {
    var s := SanitizeFilenameSafe(name);
    Step(Ok(s), Emit(w, InfoMsg("Sanitized filename: " + name + " -> " + s)))
  }

  /** A cloud placeholder: log the attempt, then raise. */
  function Unsupported<T>(w: World, attempt: string, message: string): (r: Step<T>)
    ensures r.outcome == Err(NotImplementedError(message))
    ensures r.world == Emit(w, InfoMsg(attempt))
  {
    Step(Err(NotImplementedError(message)), Emit(w, InfoMsg(attempt)))
  }

  function UploadFile(w: World, localPath: Path, cloudPath: Path): (r: Step<()>)
    ensures r.outcome == Err(NotImplementedError("Cloud upload is not implemented."))
    ensures r.world.fs == w.fs && r.world.metrics == w.metrics
  {
    Unsupported(w, "Attempting to upload file from " + localPath + " to " + cloudPath, "Cloud upload is not implemented.")
  }

  function DownloadFile(w: World, cloudPath: Path, localPath: Path): (r: Step<()>)
    ensures r.outcome == Err(NotImplementedError("Cloud download is not implemented."))
    ensures r.world.fs == w.fs && r.world.metrics == w.metrics
  {
    Unsupported(w, "Attempting to download file from " + cloudPath + " to " + localPath, "Cloud download is not implemented.")
  }

  function ListCloudFiles(w: World, cloudPath: Path): (r: Step<seq<Path>>)
    ensures r.outcome == Err(NotImplementedError("Cloud file listing is not implemented."))
    ensures r.world.fs == w.fs && r.world.metrics == w.metrics
  {
    Unsupported(w, "Attempting to list files in cloud path: " + cloudPath, "Cloud file listing is not implemented.")
  }

  function DeleteCloudFile(w: World, cloudPath: Path): (r: Step<()>)
    ensures r.outcome == Err(NotImplementedError("Cloud file deletion is not implemented."))
    ensures r.world.fs == w.fs && r.world.metrics == w.metrics
  {
    Unsupported(w, "Attempting to delete file in cloud path: " + cloudPath, "Cloud file deletion is not implemented.")
  }

  /** `log_operation`: one info entry carrying the details as its fields. */
  function LogOperation(w: World, operation: string, details: seq<(string, Value)>): (r: Step<()>)
    ensures r.outcome == Ok(())
    ensures r.world == Emit(w, LogEntry(Info, "Operation: " + operation, details))
  {
    Step(Ok(()), Emit(w, LogEntry(Info, "Operation: " + operation, details)))
  }

  /** The local backend as a `BaseFileManager`. */
  function Local(): Backend {
    Backend(SaveFile, FileExists, GetFileMetadata, DeleteFile, CopyFile, EnsureDirectoryExists, ListFiles,
            SanitizeFilename, LogOperation, UploadFile, DownloadFile, ListCloudFiles, DeleteCloudFile)
  }

  /** Every cloud operation of the local backend raises `NotImplementedError`, whatever the paths, and leaves the files alone. */
  lemma CloudAlwaysFails(w: World, a: Path, b: Path)
    ensures Local().uploadFile(w, a, b).outcome.Err? && Local().uploadFile(w, a, b).outcome.error.NotImplementedError?
    ensures Local().downloadFile(w, a, b).outcome.Err? && Local().downloadFile(w, a, b).outcome.error.NotImplementedError?
    ensures Local().listCloudFiles(w, a).outcome.Err? && Local().listCloudFiles(w, a).outcome.error.NotImplementedError?
    ensures Local().deleteCloudFile(w, a).outcome.Err? && Local().deleteCloudFile(w, a).outcome.error.NotImplementedError?
    ensures Local().uploadFile(w, a, b).world.fs == w.fs && Local().downloadFile(w, a, b).world.fs == w.fs
    ensures Local().listCloudFiles(w, a).world.fs == w.fs && Local().deleteCloudFile(w, a).world.fs == w.fs
  {
  }
}

=== FILE: log_levels.dfy ===
/** The five level names both the settings validator and `configure_logger` accept, compared after upper-casing. */
module LogLevels {
  import opened PyText

  /** `{"DEBUG", "INFO", "WARNING", "ERROR", "CRITICAL"}`. */
  const Allowed: set<string> := {"DEBUG", "INFO", "WARNING", "ERROR", "CRITICAL"}

  /**
   * `str(allowed_levels)`. Python prints a set in hash order, which varies
   * from one process to the next; the model fixes the declaration order.
   */
  const AllowedRepr: string := "{'DEBUG', 'INFO', 'WARNING', 'ERROR', 'CRITICAL'}"

  /** `value.upper() in allowed_levels`. */
  predicate IsAllowed(value: string) {
    Upper(value) in Allowed
  }

  /** Every allowed name is already upper case, so it is accepted as it is and names itself. */
  lemma AllowedAreUpper(level: string)
    requires level in Allowed
    ensures Upper(level) == level
    ensures IsAllowed(level)
  {
    UpperIdempotent(level);
  }

  /** Acceptance ignores case: a name and its upper-cased form are accepted together. */
  lemma IsAllowedIgnoresCase(value: string)
    ensures IsAllowed(value) <==> IsAllowed(Upper(value))
  {
    UpperIdempotent(value);
  }
}

=== FILE: logger_config.dfy ===
/**
 * `configure_logger`: the level check and the processor chain handed to
 * structlog. The global structlog configuration and the stdout handler are
 * outside the model; the chain is the result.
 */
module LoggerConfig {
  import opened Results
  import opened PyText
  import opened LogLevels
  import opened Exceptions

  /** The structlog processors the chain is built from. */
  datatype Processor =
    | TimeStamper(fmt: string)
    | AddLoggerName
    | AddLogLevel
    | StackInfoRenderer
    | FormatExcInfo
    | ConsoleRenderer
    | JsonRenderer
  {
    /** The processors that turn the event into output text. */
    predicate IsRenderer() {
      this.ConsoleRenderer? || this.JsonRenderer?
    }
  }

  /** The five processors every chain starts with, in order. */
  const BaseChain: seq<Processor> := [TimeStamper("ISO"), AddLoggerName, AddLogLevel, StackInfoRenderer, FormatExcInfo]

  /** The `ValueError` text for a rejected level (note the lower-case field name, unlike the settings validator). */
  function InvalidLevelMessage(level: string): string {
    "Invalid log_level: " + level + ". Must be one of " + AllowedRepr + "."
  }

  /**
   * `configure_logger(log_level, environment)`: a level whose upper-cased
   * form is not allowed raises `ValueError`; otherwise the base chain with
   * exactly one renderer appended last, the console renderer when the
   * environment is exactly `development` and the JSON renderer for any
   * other value.
   */
  function ConfigureLogger(level: string, environment: string): (r: Result<seq<Processor>, Exception>)
    ensures r.Ok? <==> IsAllowed(level)
    ensures r.Err? ==> r.error.ValueError? && "Invalid log_level: " + level <= r.error.message
    ensures r.Ok? ==> |r.value| == |BaseChain| + 1 && r.value[..|BaseChain|] == BaseChain
    ensures r.Ok? ==> forall i :: 0 <= i < |r.value| ==> (r.value[i].IsRenderer() <==> i == |BaseChain|)
    ensures r.Ok? ==> (r.value[|BaseChain|] == ConsoleRenderer <==> environment == "development")
    ensures r.Ok? ==> (r.value[|BaseChain|] == JsonRenderer <==> environment != "development")
  {
    if !IsAllowed(level) then Err(ValueError(InvalidLevelMessage(level)))
    else
      var renderer := if environment == "development" then ConsoleRenderer else JsonRenderer;
      Ok(BaseChain + [renderer])
  }

  /**
   * The level is only checked, never used: every accepted level gives the
   * same chain, and so does the level in any case.
   */
  lemma ChainIgnoresLevel(a: string, b: string, environment: string)
    requires IsAllowed(a) && IsAllowed(b)
    ensures ConfigureLogger(a, environment) == ConfigureLogger(b, environment)
  {
  }

  /** Matching is case-insensitive: `debug` is accepted, `INVALID` is not. */
  lemma ConfigureLoggerExamples()
    ensures ConfigureLogger("debug", "production").Ok?
    ensures ConfigureLogger("INVALID", "development").Err?
  {
    assert Upper("debug") == "DEBUG";
    assert Upper("INVALID") == "INVALID";
  }
}

=== FILE: logging.dfy ===
/** Structured log entries; every logger in the system is modelled as an append-only sequence of them. */
module Logging {
  import opened HostFs

  datatype Level = Debug | Info | Warning | Error | Critical

  /** The values carried as keyword fields of a structured entry. */
  datatype Value =
    | Str(s: string)
    | Int(n: int)
    | Bool(b: bool)
    | Null
    | Strs(items: seq<string>)
    | Meta(m: Metadata)

  datatype LogEntry = LogEntry(level: Level, event: string, fields: seq<(string, Value)>)

  /** `logger.<level>(text)` with no keyword fields. */
  function Message(level: Level, text: string): LogEntry {
    LogEntry(level, text, [])
  }

  /** `logger.info(text)`. */
  function InfoMsg(text: string): LogEntry {
    Message(Info, text)
  }

  /** `logger.error(text)`. */
  function ErrorMsg(text: string): LogEntry {
    Message(Error, text)
  }
}

=== FILE: posix_path.dfy ===
/**
 * The pieces of Python's `posixpath` that the file layer relies on:
 * `split`, `dirname`, `basename` and `join`, character for character.
 * Paths are plain strings; nothing is normalised.
 */
module PosixPath {

  type Path = string

  /** True when every character of `s` is a slash. */
  predicate AllSlashes(s: string) {
    forall k :: 0 <= k < |s| ==> s[k] == '/'
  }

  /** The root directory: a non-empty run of slashes. */
  predicate IsRoot(p: Path) {
    p != [] && AllSlashes(p)
  }

  /** Python's `p.rfind('/') + 1`: the index just past the last slash (0 when there is none). */
  function SplitIndex(p: string): (i: nat)
    ensures i <= |p|
    ensures i > 0 ==> p[i - 1] == '/'
    ensures forall k :: i <= k < |p| ==> p[k] != '/'
  {
    if p == [] then 0
    else if p[|p| - 1] == '/' then |p|
    else SplitIndex(p[..|p| - 1])
  }

  /** Python's `s.rstrip('/')`. */
  function StripTrailingSlashes(s: string): (r: string)
    ensures r <= s
    ensures r == [] || r[|r| - 1] != '/'
    ensures forall k :: |r| <= k < |s| ==> s[k] == '/'
  {
    if s != [] && s[|s| - 1] == '/' then StripTrailingSlashes(s[..|s| - 1]) else s
  }

  /**
   * `posixpath.split`: the head keeps everything up to the last slash, with
   * trailing slashes removed unless the head is all slashes; the tail is the rest.
   */
  function Split(p: Path): (r: (Path, string))
    ensures |r.0| <= |p|
    ensures r.1 != [] ==> |r.0| < |p|
    ensures r.0 == [] || IsRoot(r.0) || |r.0| < |p|
  {
    var i := SplitIndex(p);
    var head := p[..i];
    var head' := if head != [] && !AllSlashes(head) then StripTrailingSlashes(head) else head;
    assert head != [] && !AllSlashes(head) && i == |p| ==> p[|p| - 1] == '/' && |head'| < |p|;
    (head', p[i..])
  }

  /** The tail of a split is the slash-free end of the path. */
  lemma SplitTail(p: Path)
    ensures |Split(p).1| <= |p| && p[|p| - |Split(p).1|..] == Split(p).1
    ensures forall k :: 0 <= k < |Split(p).1| ==> Split(p).1[k] != '/'
  {
  }

  /** `posixpath.dirname`. */
  function Dirname(p: Path): Path {
    Split(p).0
  }

  /** `posixpath.basename`. */
  function Basename(p: Path): string {
    Split(p).1
  }

  /** `posixpath.join(a, b)`: an absolute `b` replaces `a`; otherwise one slash separates them. */
  function Join(a: Path, b: string): (r: Path)
    ensures |b| > 0 && b[0] == '/' ==> r == b
    ensures !(|b| > 0 && b[0] == '/') ==> a <= r && |b| <= |r| && r[|r| - |b|..] == b
  {
    if |b| > 0 && b[0] == '/' then b
    else if a == [] || a[|a| - 1] == '/' then a + b
    else a + "/" + b
  }

  /** A single directory entry name: non-empty, slash-free, and neither `.` nor `..`. */
  predicate IsComponent(c: string) {
    c != [] && c != "." && c != ".." && forall k :: 0 <= k < |c| ==> c[k] != '/'
  }

  /**
   * A path already in normal form: components joined by single slashes,
   * optionally after one leading slash, with no `.`/`..` and no trailing slash.
   */
  predicate Plain(p: Path)
    decreases |p|
  {
    var (h, t) := Split(p);
    && IsComponent(t)
    && if h == [] then p == t
       else if h == "/" then p == "/" + t
       else |h| < |p| && Plain(h) && p == h + "/" + t
  }

  /** A plain path ends in a character of its last component, never in a slash. */
  lemma PlainEndsInComponent(p: Path)
    requires Plain(p)
    ensures p != [] && p[|p| - 1] != '/'
  {
    var t := Split(p).1;
    assert IsComponent(t);
    assert p[|p| - 1] == t[|t| - 1] by {
      var h := Split(p).0;
      if h == [] {
        assert p == t;
      } else if h == "/" {
        assert p == "/" + t;
      } else {
        assert p == h + "/" + t;
      }
    }
  }

  /** A plain path is rebuilt by joining its dirname and basename, and it is neither empty nor the root. */
  lemma PlainJoin(p: Path)
    requires Plain(p)
    ensures Join(Dirname(p), Basename(p)) == p
    ensures p != [] && !IsRoot(p)
    ensures Dirname(p) == [] || Dirname(p) == "/" || Plain(Dirname(p))
  {
    var (h, t) := Split(p);
    assert IsComponent(t);
    PlainEndsInComponent(p);
    assert !AllSlashes(p);
    if h != [] && h != "/" {
      PlainEndsInComponent(h);
      assert Join(h, t) == h + "/" + t;
    }
  }
}

=== FILE: py_text.dfy ===
/** The few pieces of Python's text rendering the log and status strings rely on. */
module PyText {

  /** `str(b)` for a `bool`. */
  function BoolStr(b: bool): string {
    if b then "True" else "False"
  }

  /** The value of one decimal digit character. */
  function DigitValue(c: char): nat {
    if '0' <= c <= '9' then c as int - '0' as int else 0
  }

  function Digit(d: nat): (c: char)
    requires d < 10
    ensures '0' <= c <= '9' && DigitValue(c) == d
  {
    "0123456789"[d]
  }

  /** The number a string of decimal digits spells, as `int(s)` reads it. */
  function DigitsValue(s: string): nat {
    if s == [] then 0 else DigitsValue(s[..|s| - 1]) * 10 + DigitValue(s[|s| - 1])
  }

  /**
   * `str(n)` for a non-negative `int`: decimal digits that spell `n`, with no
   * sign and no leading zero.
   */
  function NatStr(n: nat): (r: string)
    decreases n
    ensures |r| >= 1
    ensures forall i :: 0 <= i < |r| ==> '0' <= r[i] <= '9'
    ensures DigitsValue(r) == n
    ensures r[0] == '0' ==> n == 0
  {
    if n < 10 then [Digit(n)]
    else
      var prefix := NatStr(n / 10);
      var r := prefix + [Digit(n % 10)];
      assert r[..|r| - 1] == prefix;
      r
  }

  /** A lower-case ASCII letter. */
  predicate IsLower(c: char) {
    'a' <= c <= 'z'
  }

  /** `str.upper` on one character, restricted to ASCII. */
  function UpperChar(c: char): (u: char)
    ensures !IsLower(u)
  {
    if IsLower(c) then (c as int - 32) as char else c
  }

  /** `str.upper` (ASCII): one character out per character in, lower-case letters raised. */
  function Upper(s: string): (r: string)
    ensures |r| == |s|
    ensures forall i :: 0 <= i < |s| ==> r[i] == UpperChar(s[i])
  {
    seq(|s|, i requires 0 <= i < |s| => UpperChar(s[i]))
  }

  /** Raising is idempotent, and a string without lower-case letters is left as it is. */
  lemma UpperIdempotent(s: string)
    ensures Upper(Upper(s)) == Upper(s)
    ensures (forall i :: 0 <= i < |s| ==> !IsLower(s[i])) ==> Upper(s) == s
  {
  }
}

=== FILE: results.dfy ===
/** Failure-carrying wrappers shared by every module of the model. */
module Results {

  /** Python's `None` or a present value. */
  datatype Option<+T> = None | Some(value: T)

  /** The outcome of a call that either returns a value or raises. */
  datatype Result<+T, +E> = Ok(value: T) | Err(error: E)
}

=== FILE: runtime.dfy ===
/**
 * The state a call runs against: the host filesystem, the host clock as a
 * write would read it, the performance tracker's metric map, and the shared
 * application log.
 */
module Runtime {
  import opened Results
  import opened HostFs
  import opened Logging
  import opened Exceptions

  /** An elapsed time as the tracker records it (abstract, never negative). */
  type Duration = nat

  datatype World = World(fs: FileSys, now: Time, metrics: map<string, Duration>, log: seq<LogEntry>)

  /** What a call returns or raises, and the state it leaves behind. */
  datatype Step<T> = Step(outcome: Result<T, Exception>, world: World)

  /** Append one entry to the shared log. */
  function Emit(w: World, e: LogEntry): (w': World)
    ensures w'.log == w.log + [e]
    ensures w'.fs == w.fs && w'.now == w.now && w'.metrics == w.metrics
  {
    w.(log := w.log + [e])
  }
}

=== FILE: tracker.dfy ===
/**
 * `PerformanceTracker` and `ProgressBarTracker`: a metric store mapping
 * operation names to elapsed times, written when a tracking scope exits, and
 * a progress wrapper that passes a sequence through unchanged.
 *
 * The clock is not modelled: the elapsed time of a scope is a parameter.
 */
module Tracker {
  import opened Results
  import opened Logging
  import opened Runtime

  /** The entry logged when a scope opens. */
  function StartedEntry(name: string): LogEntry {
    LogEntry(Info, "Performance tracking started", [("operation", Str(name))])
  }

  /** The entry logged when a scope closes, on every exit path. */
  function CompletedEntry(name: string, elapsed: Duration): LogEntry {
    LogEntry(Info, "Performance tracking completed", [("operation", Str(name)), ("duration", Int(elapsed))])
  }

  /** `self.metrics[name] = elapsed`: the name now maps to the new time, every other name keeps its value. */
  function Record(metrics: map<string, Duration>, name: string, elapsed: Duration): (m: map<string, Duration>)
    ensures m.Keys == metrics.Keys + {name}
    ensures m[name] == elapsed
    ensures forall k :: k in metrics && k != name ==> m[k] == metrics[k]
  {
    metrics[name := elapsed]
  }

  /**
   * `with track_execution(name): body`. The started entry is logged before
   * the body runs (the body sees it); whatever the body returns or raises is
   * passed on unchanged, and on both paths the metric is recorded and the
   * completed entry is logged after the body's own entries.
   */
  function TrackExecution<T>(w: World, name: string, elapsed: Duration, body: World -> Step<T>): (r: Step<T>)
    ensures var inner := body(w.(log := w.log + [StartedEntry(name)]));
      && r.outcome == inner.outcome
      && r.world.fs == inner.world.fs
      && r.world.now == inner.world.now
      && r.world.log == inner.world.log + [CompletedEntry(name, elapsed)]
      && r.world.metrics.Keys == inner.world.metrics.Keys + {name}
      && r.world.metrics[name] == elapsed
      && (forall k :: k in inner.world.metrics && k != name ==> r.world.metrics[k] == inner.world.metrics[k])
  {
    var started := Emit(w, StartedEntry(name));
    var inner := body(started);
    var recorded := inner.world.(metrics := Record(inner.world.metrics, name, elapsed));
    Step(inner.outcome, Emit(recorded, CompletedEntry(name, elapsed)))
  }

  /** `get_metric`: `dict.get`, so `None` exactly for a name never recorded. */
  function GetMetric(metrics: map<string, Duration>, name: string): (r: Option<Duration>)
    ensures r.Some? <==> name in metrics
    ensures r.Some? ==> r.value == metrics[name]
  {
    if name in metrics then Some(metrics[name]) else None
  }

  /** The body of `track`: `pass`. */
  function Pass(w: World): Step<()> {
    Step(Ok(()), w)
  }

  /**
   * `track(name)`: a scope around an empty body. It never raises, leaves the
   * files and the clock alone, logs exactly the started and completed
   * entries, and records the new time under `name` while every other name
   * keeps its time.
   */
  function Track(w: World, name: string, elapsed: Duration): (r: Step<()>)
    ensures r.outcome == Ok(())
    ensures r.world.fs == w.fs && r.world.now == w.now
    ensures r.world.log == w.log + [StartedEntry(name), CompletedEntry(name, elapsed)]
    ensures r.world.metrics.Keys == w.metrics.Keys + {name}
    ensures r.world.metrics[name] == elapsed
    ensures forall k :: k in w.metrics && k != name ==> r.world.metrics[k] == w.metrics[k]
  {
    assert Pass(Emit(w, StartedEntry(name))) == Step(Ok(()), Emit(w, StartedEntry(name)));
    TrackExecution(w, name, elapsed, Pass)
  }

  /** After `track(name)`, `get_metric(name)` reports the new time and every other name reads as before. */
  lemma TrackRecords(w: World, name: string, elapsed: Duration)
    ensures GetMetric(Track(w, name, elapsed).world.metrics, name) == Some(elapsed)
    ensures forall k :: k != name ==> GetMetric(Track(w, name, elapsed).world.metrics, k) == GetMetric(w.metrics, k)
  {
  }

  /** A later scope with the same name replaces the earlier time. */
  lemma LastTrackWins(w: World, name: string, first: Duration, second: Duration)
    ensures GetMetric(Track(Track(w, name, first).world, name, second).world.metrics, name) == Some(second)
    ensures Track(Track(w, name, first).world, name, second).world.metrics.Keys == w.metrics.Keys + {name}
  {
    TrackRecords(w, name, first);
    TrackRecords(Track(w, name, first).world, name, second);
  }

  /** A scope whose body raises still records its time and still logs the completed entry; the exception propagates. */
  lemma TrackRecordsOnRaise<T>(w: World, name: string, elapsed: Duration, body: World -> Step<T>)
    requires body(Emit(w, StartedEntry(name))).outcome.Err?
    ensures TrackExecution(w, name, elapsed, body).outcome == body(Emit(w, StartedEntry(name))).outcome
    ensures GetMetric(TrackExecution(w, name, elapsed, body).world.metrics, name) == Some(elapsed)
    ensures TrackExecution(w, name, elapsed, body).world.log[|TrackExecution(w, name, elapsed, body).world.log| - 1] == CompletedEntry(name, elapsed)
  {
  }

  /** The warning `wrap` logs when handed `None`. */
  function NoneWarning(description: string): LogEntry {
    LogEntry(Warning, "Provided iterable is None. Returning an empty iterable.", [("description", Str(description))])
  }

  function BarStarted(description: string): LogEntry {
    LogEntry(Info, "Progress bar started", [("description", Str(description))])
  }

  function BarCompleted(description: string): LogEntry {
    LogEntry(Info, "Progress bar completed", [("description", Str(description))])
  }

  /** Where the `wrap` generator stands between two calls of `next()`. */
  datatype WrapState<T> = Fresh | Running(rest: seq<T>) | Finished

  /** One step inside `yield from tqdm(...)`: the next item, or the `finally` entry once the source is exhausted. */
  function Pull<T>(rest: seq<T>, description: string): (r: (WrapState<T>, Option<T>, seq<LogEntry>))
    ensures rest != [] ==> r == (Running(rest[1..]), Some(rest[0]), [])
    ensures rest == [] ==> r == (Finished, None, [BarCompleted(description)])
  {
    if rest == [] then (Finished, None, [BarCompleted(description)]) else (Running(rest[1..]), Some(rest[0]), [])
  }

  /**
   * One `next()` on the `wrap` generator: the state it leaves, the item it
   * yields (none means `StopIteration`), and the entries logged meanwhile.
   * The body runs only from the first call: the `None` warning, or the
   * started entry followed by the first pull.
   */
  function Next<T>(st: WrapState<T>, iterable: Option<seq<T>>, description: string): (r: (WrapState<T>, Option<T>, seq<LogEntry>))
    ensures r.1.None? <==> r.0.Finished?
    ensures st.Finished? ==> r == (Finished, None, [])
  {
    match st
    case Finished => (Finished, None, [])
    case Running(rest) => Pull(rest, description)
    case Fresh =>
      match iterable
      case None => (Finished, None, [NoneWarning(description)])
      case Some(source) =>
        var p := Pull(source, description);
        (p.0, p.1, [BarStarted(description)] + p.2)
  }

  /** `calls` calls of `next()` from state `st`: the state reached, the items yielded in order, and the entries logged. */
  function Drive<T>(st: WrapState<T>, iterable: Option<seq<T>>, description: string, calls: nat): (r: (WrapState<T>, seq<T>, seq<LogEntry>))
    decreases calls
  {
    if calls == 0 then (st, [], [])
    else
      var n := Next(st, iterable, description);
      var d := Drive(n.0, iterable, description, calls - 1);
      (d.0, (if n.1.Some? then [n.1.value] else []) + d.1, n.2 + d.2)
  }

  /** A finished generator yields nothing more and logs nothing more. */
  lemma {:induction false} DriveFinished<T>(iterable: Option<seq<T>>, description: string, calls: nat)
    ensures Drive(Finished, iterable, description, calls) == (Finished, [], [])
    decreases calls
  {
    if calls > 0 {
      DriveFinished(iterable, description, calls - 1);
    }
  }

  /**
   * While items remain, each call yields the next one and logs nothing; the
   * call after the last item logs the completed entry and finishes.
   */
  lemma {:induction false} DriveRunning<T>(rest: seq<T>, iterable: Option<seq<T>>, description: string, calls: nat)
    ensures calls <= |rest| ==> Drive(Running(rest), iterable, description, calls) == (Running(rest[calls..]), rest[..calls], [])
    ensures calls > |rest| ==> Drive(Running(rest), iterable, description, calls) == (Finished, rest, [BarCompleted(description)])
    decreases calls
  {
    if calls == 0 {
      assert rest[0..] == rest;
    } else if rest == [] {
      DriveFinished(iterable, description, calls - 1);
      assert Next(Running(rest), iterable, description) == (Finished, None, [BarCompleted(description)]);
      var none: seq<T> := [];
      assert Drive(Running(rest), iterable, description, calls) == (Finished, none + none, [BarCompleted(description)] + []);
      assert [BarCompleted(description)] + [] == [BarCompleted(description)];
      assert none + none == none;
    } else {
      var tail := rest[1..];
      assert Next(Running(rest), iterable, description) == (Running(tail), Some(rest[0]), []);
      DriveRunning(tail, iterable, description, calls - 1);
      var d := Drive(Running(tail), iterable, description, calls - 1);
      assert Drive(Running(rest), iterable, description, calls) == (d.0, [rest[0]] + d.1, [] + d.2);
      if calls <= |rest| {
        assert tail[calls - 1..] == rest[calls..];
        assert [rest[0]] + tail[..calls - 1] == rest[..calls];
        var nothing: seq<LogEntry> := [];
        assert nothing + nothing == nothing;
      } else {
        assert [rest[0]] + tail == rest;
        assert [] + [BarCompleted(description)] == [BarCompleted(description)];
      }
    }
  }

  /**
   * `ProgressBarTracker.wrap` driven by `next()`: nothing runs before the
   * first call. A `None` source logs its warning and stops. Any other
   * source logs the started entry on the first call, then yields its items
   * in order, and logs the completed entry only when the call after the
   * last item finds it exhausted.
   */
  lemma WrapYields<T>(iterable: Option<seq<T>>, description: string, calls: nat)
    ensures calls == 0 ==> Drive(Fresh, iterable, description, calls) == (Fresh, [], [])
    ensures iterable.None? && calls > 0 ==> Drive(Fresh, iterable, description, calls) == (Finished, [], [NoneWarning(description)])
    ensures iterable.Some? && 0 < calls <= |iterable.value| ==>
      Drive(Fresh, iterable, description, calls).1 == iterable.value[..calls] &&
      Drive(Fresh, iterable, description, calls).2 == [BarStarted(description)]
    ensures iterable.Some? && calls > |iterable.value| ==>
      Drive(Fresh, iterable, description, calls) == (Finished, iterable.value, [BarStarted(description), BarCompleted(description)])
  {
    if calls > 0 {
      match iterable
      case None =>
        DriveFinished(iterable, description, calls - 1);
        assert Next(Fresh, iterable, description) == (Finished, None, [NoneWarning(description)]);
        var none: seq<T> := [];
        assert Drive(Fresh, iterable, description, calls) == (Finished, none + none, [NoneWarning(description)] + []);
        assert [NoneWarning(description)] + [] == [NoneWarning(description)];
        assert none + none == none;
      case Some(source) =>
        if source == [] {
          DriveFinished(iterable, description, calls - 1);
          assert Pull(source, description) == (Finished, None, [BarCompleted(description)]);
          assert [BarStarted(description)] + [BarCompleted(description)] == [BarStarted(description), BarCompleted(description)];
          assert Next(Fresh, iterable, description) == (Finished, None, [BarStarted(description), BarCompleted(description)]);
          assert [BarStarted(description), BarCompleted(description)] + [] == [BarStarted(description), BarCompleted(description)];
          var none: seq<T> := [];
          assert Drive(Fresh, iterable, description, calls) == (Finished, none + none, [BarStarted(description), BarCompleted(description)] + []);
          assert none + none == none;
        } else {
          var tail := source[1..];
          assert Pull(source, description) == (Running(tail), Some(source[0]), []);
          assert [BarStarted(description)] + [] == [BarStarted(description)];
          assert Next(Fresh, iterable, description) == (Running(tail), Some(source[0]), [BarStarted(description)]);
          DriveRunning(tail, iterable, description, calls - 1);
          var d := Drive(Running(tail), iterable, description, calls - 1);
          assert Drive(Fresh, iterable, description, calls) == (d.0, [source[0]] + d.1, [BarStarted(description)] + d.2);
          if calls <= |source| {
            assert [source[0]] + tail[..calls - 1] == source[..calls];
            assert [BarStarted(description)] + [] == [BarStarted(description)];
          } else {
            assert [source[0]] + tail == source;
            assert [BarStarted(description)] + [BarCompleted(description)] == [BarStarted(description), BarCompleted(description)];
          }
        }
    }
  }

  /**
   * `ProgressBarTracker.track`: `yield from self.wrap(...)`, so each `next()`
   * on it is one on `wrap`; driven to exhaustion it yields the source and
   * logs exactly the two bar entries, or only the warning for `None`.
   */
  function ProgressTrack<T>(iterable: Option<seq<T>>, description: string, calls: nat): (r: (seq<T>, seq<LogEntry>))
    ensures iterable.None? && calls > 0 ==> r == ([], [NoneWarning(description)])
    ensures iterable.Some? && calls > |iterable.value| ==> r == (iterable.value, [BarStarted(description), BarCompleted(description)])
    ensures iterable.Some? && 0 < calls <= |iterable.value| ==> r == (iterable.value[..calls], [BarStarted(description)])
  {
    WrapYields(iterable, description, calls);
    var (_, items, entries) := Drive(Fresh, iterable, description, calls);
    (items, entries)
  }
}
